=== FILE: README.md ===
# go-actor core, modelled in Dafny

This project models the core of the Go package `actor` of go-actor. The package has two abstractions:

- **Actors** are synchronous functions from a value to `(out, err)`. An actors connector composes two of them in sequence.
- **Daemons** are goroutine-backed workers wired by three channels (in, out, err). They are built from a prototype, and they carry a launched flag, a cancellation scope and a join group.

Daemons can be chained by a daemons connector, fanned out by a cluster, or bridged to actors by two struct connectors.

The goroutines are taken out. The model keeps three deterministic pieces:

1. **Actor calls and sequential composition** (module `Actors`). An actor answers a raw Go pair `Answer(out, err)`. `Classify` reads that pair the way every caller in the package does: an error first, then a nil output, otherwise a value.
2. **The three per-message loops** (module `Loops`): the loop of an actor run as a daemon (`ActorLoop`), the daemon-to-actor bridge (`DaemonActorLoop`) and the actor-to-daemon bridge (`ActorDaemonLoop`).
   - Each loop is a pure function over a finite sequence of receive and cancel events. The end of the sequence is a closed channel.
   - Each returns a `Trace`: the values written out, the errors written to the error channel, why it stopped, the error the daemon function returns, and how many events it consumed.
3. **Daemon wiring and launch state** (modules `Prototypes`, `Daemons`, `Connectors`, `Clusters`, `DaemonActorConnectors`, `ActorDaemonConnectors`).
   - A daemon is an immutable tree: a prototype, or a daemons connector of two daemons.
   - Channels, cancellation scopes and join groups are abstract handles (`nat`) drawn from a counter that every launch threads through. A Go `nil` handle is `None`.
   - What the Go code does by mutating a freshly copied struct, the model does by returning a new value.
   - Module `Pipelines` gives the streaming meaning of a daemon tree whose prototypes run actor loops. A stream passes a prototype only while it is launched, and passes from one side of a connector to the other only when `to` reads the channel `from` writes. It is used for the plus-one scenarios of the package's tests.

The model follows the code in places where a reader might expect otherwise:

- `Clone` copies the `launched` flag as it is. A clone of a launched daemon is launched.
- A daemons connector refuses to launch, with "already launched", only when both sides report launched. Otherwise it wires both sides and launches `from`, then `to`, skipping neither. A side that cannot launch returns its own error: "daemon already launched" from a prototype, "already launched" from a connector whose two sides are launched. When only `to` fails, `from` has already been launched and stays launched (`Daemons.LaunchError`, `Daemons.ConnectorRunWires`).
- The loop of an actor run as a daemon passes a nil input value to its actor like any other value. Only the two bridges stop on a nil input (`Loops.NilMessagePolicies`).
- No code of the core closes an in, out or err channel; it closes only its own signals (the `launched` channel of a prototype run and the `wait` channel of a cluster). A loop ends on a closed input only if something outside the core closes it.
- The `Run` of each struct connector launches a copy of the embedded prototype. The instance it returns is therefore a plain prototype (`DaemonActorConnectors.Run`, `ActorDaemonConnectors.Run`).
- The actor-to-daemon connector does not override `Stop`, `Wait` or `IsLaunched`. They act on its own prototype only and never reach the downstream daemon (`ActorDaemonConnectors.Stop`, `ActorDaemonConnectors.Wait`).
- The cluster's size is a `nat`. A negative size makes Go's `make` panic inside the cluster's own launched goroutine, after the cluster prototype is launched but before any member is, rather than at `Run`.

## Model

| member | source | states |
|---|---|---|
| Actors.Call | actor/connector_actors.go:11-36 | A plain actor's call is its function. A connector calls `from` first; an error or nil output ends the call, otherwise `to` gets `from`'s output. A failing composition always has a nil output |
| Actors.AsActorFn | actor/actor.go:72-74 | The function returned answers every message exactly as the actor's `Call` does; for a plain function it is that function itself |
| Actors.PlainFunctionIsItsOwnActor | actor/actor.go:72-86 | `NewActor`, `AsActor` and `AsActorFn` are identities, and calling a plain actor is applying its function |
| Actors.NewActorsConnector | actor/connector.go:19-24 | The actors connector stores both operands as given |
| Actors.ConnectActor | actor/actor.go:20-22 | Connecting an actor to another builds the actors connector of the two |
| Actors.Connect | actor/connector_actors.go:38-49 | `Connect` overwrites exactly `from` and `to`, which `From` and `To` then return |
| Actors.ComposedFromFails | actor/connector_actors.go:13-16 | If `from` fails, the connector answers `(nil, that error)`, whatever `to` is |
| Actors.ComposedFromSilent | actor/connector_actors.go:18-20 | If `from` answers `(nil, nil)`, so does the connector, whatever `to` is |
| Actors.ComposedForwards | actor/connector_actors.go:22-26 | Otherwise the connector answers `to`'s error on `from`'s output, with the output forced to nil when `to` fails |
| Actors.ComposedClassified | actor/connector_actors.go:11-28 | Read through `Classify`, a composition fails with `from`'s error, is silent when `from` is, and otherwise is `to` applied to `from`'s value |
| Actors.ComposeAssociative | actor/connector_actors.go:11-28 | Grouping never changes a composition's answer |
| Actors.PlusChainAddsLength | actor/actor_test.go:57-98 | However plus-one actors are grouped by connectors, the chain adds its number of plus-one functions |
| Actors.ActorScenarios | actor/actor_test.go:57-98 | Plus-two, plus-three and nested plus-six chains map 0 to 2, 3 and 6 |
| Loops.ActorLoop | actor/actor.go:36-70 | The loop consumes only received messages and returns nil on every path. It stops on a closed input, on cancellation, or right after the first `(nil, nil)` answer. No message it went past answered `(nil, nil)`, and values plus errors written equal the messages it went past |
| Loops.ActorLoopEmits | actor/actor.go:43-66 | The loop writes, in order, the value of every message it went past that answered a value, and the error of every one that failed |
| Loops.DaemonActorLoop | actor/connector_daemon_actor.go:49-76 | The daemon-to-actor loop never writes the error channel. A nil upstream value, a closed upstream or cancellation ends it with nil. A failing actor ends it with that error wrapped as a 'to' call error. A nil answer is skipped. Every message it went past was a value the actor did not fail on |
| Loops.DaemonActorLoopEmits | actor/connector_daemon_actor.go:62-73 | The daemon-to-actor loop writes the actor's values on the upstream messages it went past, in order |
| Loops.ActorDaemonLoop | actor/connector_actor_daemon.go:92-120 | The actor-to-daemon loop ends with nil on a nil input, a closed input or a `(nil, nil)` answer. A failing actor ends it with the error wrapped as a 'from' call error. Every message it went past is forwarded as the actor's value, one for one and in order |
| Loops.OneMessagePolicies | actor/actor.go:48-60 | On one message the three loops differ only in what a nil answer does (stop, skip, stop) and what an error does (continue, stop, stop) |
| Loops.NilMessagePolicies | actor/connector_daemon_actor.go:58-60 | A nil input ends both bridges with nil, while the actor loop calls its actor on it |
| Prototypes.NewDaemon | actor/daemon.go:151-155 | A new prototype has only its function set: no channels, no scope, no join group, not launched |
| Prototypes.AsDaemon | actor/actor.go:28-30 | An actor's daemon is an unlaunched prototype with no channels that runs the actor's loop |
| Prototypes.RunProto | actor/daemon.go:50-100 | Run keeps the function and every channel already set, and allocates only the missing ones and a new cancellation scope. The handles it draws are distinct from each other, and a prototype holding only handles below the counter still does so afterwards, so no drawn handle was already held. The copy it returns is launched. It starts the function exactly when the copy was not launched, and otherwise fails with "daemon already launched" |
| Prototypes.Finish | actor/daemon.go:82-94 | When the function returns, the flag goes back to clear and nothing else changes. A non-nil error is offered on the error channel exactly when cancellation did not win |
| Prototypes.IsLaunchedProto | actor/daemon.go:46-48 | A prototype reports launched exactly when every Run of it is refused with "daemon already launched" |
| Prototypes.StopProto | actor/daemon.go:126-135 | Stop does nothing unless launched. A launched prototype with a scope has it cancelled and forgotten; nothing else changes |
| Prototypes.WaitProto | actor/daemon.go:137-141 | Wait joins the group if there is one and is a no-op otherwise |
| Prototypes.StopProtoIdempotent | actor/daemon.go:126-135 | A second Stop cancels nothing |
| Prototypes.SingleFlight | actor/daemon.go:76-86 | A template launches any number of times because Run leaves it unlaunched. Its launched instance refuses a second Run until its function returns, and then launches again |
| Prototypes.StopAfterRun | actor/daemon.go:126-135 | Stop on a launched instance cancels the scope Run opened, once. Stop after the function returned cancels nothing |
| Daemons.SetIn | actor/connector_daemons.go:74-76 | Input is routed to the leftmost prototype; output, error channel, structure, flags and launch error are unchanged (the full frame is `Daemons.SetInFrame`) |
| Daemons.SetInFrame | actor/connector_daemons.go:74-76 | Only the leftmost prototype's input changes: every other prototype and every connector's error channel stay as they were |
| Daemons.SetOut | actor/connector_daemons.go:78-80 | Output is routed to the rightmost prototype; input, error channel, structure, flags and launch error are unchanged (the full frame is `Daemons.SetOutFrame`) |
| Daemons.SetOutFrame | actor/connector_daemons.go:78-80 | Only the rightmost prototype's output changes: every other prototype and every connector's error channel stay as they were |
| Daemons.SetErr | actor/connector_daemons.go:82-86 | A connector keeps the error channel as its own and gives it to both sides; input, output, structure, flags and launch error are unchanged (the full frame is `Daemons.SetErrFrame`) |
| Daemons.SetErrFrame | actor/connector_daemons.go:82-86 | Every prototype and every connector of the tree gets the new error channel, and no other field changes |
| Daemons.SettersKeepWired | actor/connector_daemons.go:74-86 | Routing an input, an output or an error channel keeps a wired tree wired |
| Types.ViewsDetermine | actor/connector_daemons.go:9-13 | A tree is determined by its structure, its prototypes in order and its connectors' error channels, so the three frame lemmas pin each setter's result down completely |
| Daemons.SettersKeepBelow | actor/connector_daemons.go:74-86 | A setter adds no handle to the tree except the one it is given |
| Daemons.Clone | actor/connector_daemons.go:15-21 | A clone has the same functions, channel handles, error channel and launched flags |
| Daemons.EndsOfFrontier | actor/connector_daemons.go:88-94 | A tree's input is its first prototype's input and its output is its last prototype's output |
| Daemons.FlagsOfFrontier | actor/connector_daemons.go:70-72 | A tree reports launched exactly when every prototype in it is launched, and is unlaunched throughout exactly when none is |
| Daemons.WiredSharesErrors | actor/connector_daemons.go:82-98 | In a wired tree, every prototype writes errors to the channel the tree reports as its error channel |
| Daemons.Stop | actor/connector_daemons.go:100-103 | Stop visits every prototype from `from` to `to` and changes only their cancellation scopes: the structure, every connector's error channel and every other prototype field stay as they were |
| Daemons.StopCancelsLaunchedScopes | actor/connector_daemons.go:100-103 | Stop cancels, in launch order and once each, the scope of every launched prototype that holds one |
| Daemons.Wait | actor/connector_daemons.go:105-108 | Wait joins the group of every prototype that has one, in launch order |
| Daemons.StopIdempotent | actor/connector_daemons.go:100-103 | A second Stop of any daemon tree changes nothing and cancels nothing |
| Daemons.Wire | actor/connector_daemons.go:36-53 | Channels already set are kept and missing ones are fresh and distinct. `to` reads the channel `from` writes, allocated if `from` had none. Both sides share the connector's error channel. No side's flags, structure or launch error change |
| Daemons.WireKeepsBelow | actor/connector_daemons.go:36-53 | Wiring holds only handles drawn before the counter it returns |
| Daemons.Run | actor/connector_daemons.go:23-68 | Launch keeps the tree's structure. The tree's own input, output and error channel are kept when set and drawn fresh otherwise, while wiring overwrites each inner `to`'s input and every prototype's error channel. The error returned is the reference launch error: none exactly when no prototype is launched, and then everything is launched. A connector whose two sides are launched is refused with "already launched" and returned unchanged |
| Daemons.LaunchError | actor/connector_daemons.go:30-64 | Launching fails exactly when some prototype is launched. A launched prototype reports "daemon already launched", and a connector with both sides launched reports "already launched" |
| Daemons.RunDrawsApart | actor/connector_daemons.go:36-44 | The input, output and error channel a launch draws for a tree are distinct channels |
| Daemons.RunKeepsBelow | actor/connector_daemons.go:23-68 | A launch holds only handles drawn before the counter it returns, so every channel, scope and group it allocates is new to the tree |
| Daemons.ConnectorRunWires | actor/connector_daemons.go:46-64 | After a connector launches, `to`'s input is `from`'s output and both sides report the connector's error channel. If `from` cannot launch, its launch error is returned and `to` is left unlaunched as it was. Otherwise `from` stays launched and `to`'s launch error, if any, is returned |
| Daemons.RunWires | actor/connector_daemons.go:46-64 | Launching an unlaunched tree wires every connector in it, however deep |
| Connectors.NewDaemonsConnector | actor/connector.go:26-31 | The connector holds clones of both operands and no error channel; its input, output and launched state come from the operands |
| Connectors.NewActorDaemonConnector | actor/connector.go:33-38 | Equals the daemons connector of the actor's unlaunched daemon and `to` |
| Connectors.ConnectDaemon | actor/actor.go:24-26 | Connecting an actor to a daemon puts the actor's loop in front of the daemon |
| Connectors.NewDaemonActorConnector | actor/connector.go:40-45 | Equals the daemons connector of `from` and the actor's unlaunched daemon |
| Connectors.ActorRun | actor/actor.go:32-34 | Launching an actor is launching its daemon. It never fails, and its three channels are new and distinct |
| Connectors.NestedConnectorsLaunch | actor/connector.go:26-31 | A connector of unlaunched daemons launches and is launched afterwards. Every `to` in the tree, however deep, reads its `from`'s output, and each connector's sides share its error channel |
| Connectors.ActorDaemonsLaunchOnce | actor/connector_daemons.go:32-34 | A connector of two actor daemons launches once; a launched connector is refused |
| Pipelines.PlusLoopShifts | actor/actor.go:43-66 | A plus-one chain's loop writes every input shifted by the chain's length, in order, and consumes all of it |
| Pipelines.PipelineNeedsLaunch | actor/connector_daemons.go:50-64 | A tree carries a stream only if all its prototypes are launched, and a connector only if its `to` reads the channel its `from` writes |
| Pipelines.PlusPipelineShifts | actor/connector_daemons.go:50-64 | A launched, wired tree of plus-one loops shifts every input by the number of plus-one functions in it |
| Pipelines.PlusTrees | actor/actor_test.go:272-279 | The doubled trees of the tests are unlaunched plus-one trees of gain 2, 4, 8 and 16 |
| Pipelines.UnlaunchedIsSilent | actor/daemon.go:76-88 | A tree with no launched prototype carries no stream: only a launched copy runs its function |
| Pipelines.LaunchedPlusTree | actor/connector_daemons.go:23-68 | An unlaunched tree of plus-one loops launches, and its launched instance shifts every input by the tree's gain |
| Pipelines.PlusTwoScenario | actor/actor_test.go:171-231 | Two plus-one daemons joined by a connector carry nothing before launch; launched, they map 0 to 2, then 2 to 4 |
| Pipelines.PlusEightScenario | actor/actor_test.go:234-268 | A connector of connectors of plus-two pipelines launches and maps 0 to 8 |
| Pipelines.PlusSixteenScenario | actor/actor_test.go:272-303 | One more doubling launches and maps 0 to 16 |
| Clusters.NewDaemonsCluster | actor/daemon_cluster.go:8-9 | A cluster is an unlaunched prototype with no channels whose function is the cluster body |
| Clusters.Member | actor/daemon_cluster.go:22-26 | A member is a clone of the template on exactly the cluster's three channels, with the template's structure and flags, so it fails a launch with the template's own launch error |
| Clusters.Spawn | actor/daemon_cluster.go:20-33 | Either `size` members launch, each launched on the cluster's channels with the template's structure, or the first launch fails and its error, the template's `LaunchError` ("daemon already launched" or "already launched"), is returned with no member kept |
| Clusters.StartCluster | actor/daemon_cluster.go:10-33 | The cluster's channels are kept or fresh, and all members share the same three; a failed launch returns the template's launch error |
| Clusters.ClusterSharesChannels | actor/daemon_cluster.go:8-33 | Launching a cluster fans the instance's own channels out to every member. There are exactly `size` launched clones, or, when the template holds a launched prototype, the template's launch error |
| Clusters.ClusterShutdown | actor/daemon_cluster.go:35-53 | The waiter goroutine waits on every member, in order, and only then closes `wait`. The cluster's own goroutine never waits on a member; it stops every member, in order, before its first join exactly when cancelled, and it always ends with a join. Member waits are not ordered against the stops |
| Clusters.ClusterExit | actor/daemon_cluster.go:28-53 | The cluster returns the launch error with no shutdown at all, or nil after a final join on a waiter that waited on every member. The logged stops leave the members as launched when there was no cancellation, and otherwise as after one `StopAll`, whatever the number of rounds |
| Clusters.StopAll | actor/daemon_cluster.go:47-50 | Stopping all members stops each in place |
| Clusters.StopAllIdempotent | actor/daemon_cluster.go:45-51 | Repeating the cancellation branch cancels nothing more |
| Clusters.StopRoundsOnce | actor/daemon_cluster.go:45-51 | However many times the cancellation case runs, the members end as after one round and only the first round cancels scopes |
| Clusters.ClusterScenario | actor/actor_test.go:651-683 | A five-member plus-one cluster launches five members, and each maps 1 to 2 and 2 to 3 |
| DaemonActorConnectors.Clone | actor/connector_daemon_actor.go:16-21 | A clone clones the upstream daemon and shares the actor |
| DaemonActorConnectors.Reports | actor/connector_daemon_actor.go:94-96 | The connector reads its input at the upstream's first prototype. Its output, error channel and launched flag are its own prototype's, whatever the upstream |
| DaemonActorConnectors.SetIn | actor/connector_daemon_actor.go:80-83 | Sets the connector's input and the upstream's; `In` reports the upstream's |
| DaemonActorConnectors.SetOut | actor/connector_daemon_actor.go:85-87 | Changes only the output of the connector's own prototype; every other field of it and the upstream are untouched |
| DaemonActorConnectors.SetErr | actor/connector_daemon_actor.go:89-92 | The connector and the upstream share one error channel |
| DaemonActorConnectors.Stop | actor/connector_daemon_actor.go:98-101 | Stop acts on the upstream, then on the connector's own prototype |
| DaemonActorConnectors.StopCascades | actor/connector_daemon_actor.go:98-101 | Stop cancels the upstream's launched scopes in order, then the connector's own; a second Stop cancels nothing |
| DaemonActorConnectors.WaitCascades | actor/connector_daemon_actor.go:103-106 | Wait joins the upstream's groups, then the connector's own |
| DaemonActorConnectors.Run | actor/connector_daemon_actor.go:23-26 | Run launches a copy of the prototype running the bridge. It fails exactly when the prototype is launched, keeps the channels set and draws the missing ones |
| DaemonActorConnectors.Start | actor/connector_daemon_actor.go:29-47 | The prologue wires the connector's channels through its setters and launches the upstream. It fails with the upstream's launch error, and otherwise leaves the upstream writing a channel of its own |
| DaemonActorConnectors.BridgeRun | actor/connector_daemon_actor.go:28-77 | An upstream that cannot launch ends the bridge with its launch error before anything is written |
| DaemonActorConnectors.BridgeEmits | actor/connector_daemon_actor.go:44-76 | With the upstream launched, the bridge writes the actor's values on the upstream's messages and returns nil, unless the actor fails, whose error it returns wrapped |
| ActorDaemonConnectors.Clone | actor/connector_actor_daemon.go:59-64 | A clone clones the downstream daemon and shares the actor |
| ActorDaemonConnectors.Reports | actor/connector_actor_daemon.go:9-14 | `In`, `Out`, `Err`, `IsLaunched` and `Wait` are the embedded prototype's, whatever the downstream |
| ActorDaemonConnectors.SetIn | actor/connector_actor_daemon.go:124-126 | Changes only the input of the connector's own prototype; every other field of it, the actor and the downstream are untouched |
| ActorDaemonConnectors.SetOut | actor/connector_actor_daemon.go:128-131 | Sets the connector's output and the downstream's |
| ActorDaemonConnectors.SetErr | actor/connector_actor_daemon.go:133-136 | The connector and the downstream share one error channel |
| ActorDaemonConnectors.Stop | actor/connector_actor_daemon.go:9-14 | Stop is the embedded prototype's: the prototype is stopped, and the downstream is untouched |
| ActorDaemonConnectors.StopIdempotent | actor/daemon.go:126-135 | A second Stop cancels nothing |
| ActorDaemonConnectors.Wait | actor/connector_actor_daemon.go:9-14 | Wait is the embedded prototype's and never joins the downstream |
| ActorDaemonConnectors.Run | actor/connector_actor_daemon.go:66-69 | Run launches a copy of the prototype running the bridge and fails exactly when the prototype is launched |
| ActorDaemonConnectors.Start | actor/connector_actor_daemon.go:72-91 | The prologue wires the channels and launches the downstream on the connector's output and error channel. It fails with the downstream's launch error |
| ActorDaemonConnectors.BridgeRun | actor/connector_actor_daemon.go:71-122 | A downstream that cannot launch ends the bridge with its launch error before anything is forwarded |
| ActorDaemonConnectors.BridgeForwards | actor/connector_actor_daemon.go:92-120 | With the downstream launched, the bridge forwards the actor's values in input order and returns nil, unless the actor fails, whose error it returns wrapped |
| ActorDaemonConnectors.FacadeAnswer | actor/connector_actor_daemon.go:37-55 | An error value becomes `(nil, err)`, an output value is returned, and a closed output or cancellation gives `(nil, nil)` |
| ActorDaemonConnectors.FacadeCall | actor/connector_actor_daemon.go:26-57 | The façade launches exactly when the receiver reports unlaunched, and that report never changes |
| ActorDaemonConnectors.FacadeRelaunchesEveryCall | actor/connector_actor_daemon.go:28-35 | As written, a second call launches again, and the second bridge fails at once because its downstream is already launched |
| ActorDaemonConnectors.LazyCall | actor/connector_actor_daemon.go:28-35 | The lazy façade launches only when it holds no launched instance, and keeps the one it launched |
| ActorDaemonConnectors.FacadeLaunchesOnce | actor/connector_actor_daemon.go:28-35 | The lazy façade launches one working bridge on the first call and none on later calls |

## Left out

- Goroutines, `select` races and context timing are left out. Which ready case a receiving `select` takes is a parameter: the event sequence of a loop, the `Arrival` of the façade, the `cancelled` flag of `Finish` and the number of cancellation rounds of `ClusterShutdown`.
- Loops.ActorLoop, Loops.DaemonActorLoop, Loops.ActorDaemonLoop: the `select` that sends a result (actor/actor.go:50-55 and 62-65, actor/connector_daemon_actor.go:68-71, actor/connector_actor_daemon.go:114-117) can also take cancellation. The model always takes the send, so a message consumed and then cancelled before its result is sent is not represented.
- `WaitGroup` counting and blocking are left out. A wait is recorded as the group it joins.
- A launch that succeeds returns no error. The error `Run` reads after launching is a racy read of a variable the goroutine writes (actor/daemon.go:88, 99).
- Daemons.Clone: the model copies values, so the aliasing of the shared upstream or downstream `Daemon` references is not modelled. This includes the receiver that a struct connector's bridge rewires through its setters.
- Custom daemon functions (`Body.Custom`) are opaque. Only actor loops, the cluster body and the two bridges are modelled.
- `actorDaemonConnectorInstance.Call` is left out: it calls itself through `AsActor` (actor/connector_actor_daemon.go:16-24) and never terminates.
- The actors connector's own `Call` and `AsActor` are covered by `Actors.Call`, which is the composed function.
- The façade's answer to concurrent callers, who may read each other's outputs, is left out.
- Channel closing, `Close`, `DisableCloseChannelsOnStop`, broadcast daemons and chainable setters are left out. The core's code defines none of them.
- Logging (actor/daemon_cluster.go:43) is left out, and so is the persistence and null-drain actors of `log_actor.go` and `null_reader.go`. The `ErrorInputFormat` sentinel is an opaque `Fault`.
- The load distribution of a cluster's members over their shared input is left out. Each member is shown to compute the same function.
- Pipelines.PlusPipelineShifts: the stream model treats the end of the finite input as the end of every loop. No code closes the inner channels, so in Go the inner loops keep waiting instead.
- Daemons.Run: the contract does not say which fresh handle each inner prototype receives. It says which of the tree's own channels are kept, that the ones drawn for them are distinct (`Daemons.RunDrawsApart`), and that every handle drawn is new to the tree (`Daemons.RunKeepsBelow`).
- Clusters.ClusterShutdown: the two goroutines are given as two separate logs, not as one merged trace. The rule that a receive from `wait` completes only after the waiter's close is stated in the documentation, not as an ordering between the logs. The number of cancellation rounds is a finite parameter. In Go, once `wait` is closed and the context is done, the `select` picks at random, so the round count is finite only with probability one.
- Actors.Connect: the model returns a new connector value. In Go, `Connect` overwrites the connector in place (actor/connector_actors.go:38-41), so functions already returned by its `AsActorFn` see the new operands. That aliasing is not modelled.

## Findings

| source | as written | input that shows it | evidently intended | confidence | as-written member | corrected member |
|---|---|---|---|---|---|---|
| actor/connector_actor_daemon.go:28-35 | The façade asks the receiver `d.IsLaunched()`, but `d.Run` launches a copy of the embedded prototype, so the receiver's flag is never set | Two calls on an unlaunched connector whose downstream is an unlaunched prototype: both launch a bridge, and the second bridge fails at once with "daemon already launched" because the first bridge already launched the downstream | Launch once, on the first call, and reuse that instance on later calls | high; not executed | ActorDaemonConnectors.FacadeRelaunchesEveryCall | ActorDaemonConnectors.FacadeLaunchesOnce |

=== FILE: actor_daemon.dfy ===
/** `actorDaemonConnectorInstance`: a prototype of its own whose function launches
    a downstream daemon and forwards an actor's answers to the downstream's input,
    plus a synchronous actor façade over the launched bridge.

    Only `Clone`, `SetIn`, `SetOut`, `SetErr` and `Run` are its own: `In`, `Out`,
    `Err`, `IsLaunched`, `Stop` and `Wait` are the embedded prototype's, so they do
    not reach the downstream daemon.
 */
module ActorDaemonConnectors {
  import opened Types
  import opened Actors
  import opened Prototypes
  import opened Loops
  import D = Daemons

  datatype Connector<!V> = Connector(base: Proto<V>, from: Actor<V>, to: Daemon<V>)

  /** `Clone`: a copy with the same actor and a clone of the downstream. */
  function Clone<V>(c: Connector<V>): (r: Connector<V>)
    ensures r.base == c.base && r.from == c.from && r.to == D.Clone(c.to)
    ensures In(r) == In(c) && Out(r) == Out(c) && Err(r) == Err(c) && IsLaunched(r) == IsLaunched(c)
  {
    Connector(c.base, c.from, D.Clone(c.to))
  }

  function In<V>(c: Connector<V>): Option<Handle>
  {
    c.base.inCh
  }

  function Out<V>(c: Connector<V>): Option<Handle>
  {
    c.base.outCh
  }

  function Err<V>(c: Connector<V>): Option<Handle>
  {
    c.base.errCh
  }

  /** The prototype's flag; the downstream's does not count. */
  predicate IsLaunched<V>(c: Connector<V>)
  {
    c.base.launched
  }

  /** The connector does not override `In`, `Out`, `Err`, `IsLaunched` or `Wait`:
      they are the embedded prototype's, whatever the downstream. */
  lemma Reports<V>(c: Connector<V>, u: Daemon<V>)
    ensures In(c.(to := u)) == In(c) == c.base.inCh
    ensures Out(c.(to := u)) == Out(c) == c.base.outCh
    ensures Err(c.(to := u)) == Err(c) == c.base.errCh
    ensures IsLaunched(c.(to := u)) == IsLaunched(c) == c.base.launched
    ensures Wait(c.(to := u)) == Wait(c)
  {
  }

  /** `SetIn` changes the connector only. */
  function SetIn<V>(c: Connector<V>, h: Option<Handle>): (r: Connector<V>)
    ensures In(r) == h && r.to == c.to && r.from == c.from
    ensures Out(r) == Out(c) && Err(r) == Err(c) && r.base.launched == c.base.launched
    ensures r.base == c.base.(inCh := h)
  {
    Connector(c.base.(inCh := h), c.from, c.to)
  }

  /** `SetOut` sets the connector's output and the downstream's. */
  function SetOut<V>(c: Connector<V>, h: Option<Handle>): (r: Connector<V>)
    ensures Out(r) == h && D.Out(r.to) == h
    ensures In(r) == In(c) && Err(r) == Err(c) && r.from == c.from && r.base.launched == c.base.launched
    ensures D.In(r.to) == D.In(c.to) && D.Err(r.to) == D.Err(c.to)
    ensures Shape(r.to) == Shape(c.to) && D.LaunchError(r.to) == D.LaunchError(c.to)
    ensures r.base == c.base.(outCh := h) && r.to == D.SetOut(c.to, h)
  {
    Connector(c.base.(outCh := h), c.from, D.SetOut(c.to, h))
  }

  /** `SetErr` gives the connector and the downstream one error channel. */
  function SetErr<V>(c: Connector<V>, h: Option<Handle>): (r: Connector<V>)
    ensures Err(r) == h && D.Err(r.to) == h
    ensures In(r) == In(c) && Out(r) == Out(c) && r.from == c.from && r.base.launched == c.base.launched
    ensures D.In(r.to) == D.In(c.to) && D.Out(r.to) == D.Out(c.to)
    ensures Shape(r.to) == Shape(c.to) && D.LaunchError(r.to) == D.LaunchError(c.to)
    ensures r.base == c.base.(errCh := h) && r.to == D.SetErr(c.to, h)
  {
    Connector(c.base.(errCh := h), c.from, D.SetErr(c.to, h))
  }

  /** `Stop` is the prototype's: it never reaches the downstream daemon. */
  function Stop<V>(c: Connector<V>): (r: (Connector<V>, seq<Handle>))
    ensures r.0.to == c.to && r.0.from == c.from && r.0.base == StopProto(c.base).0
    ensures r.1 == if c.base.launched && c.base.cancel.Some? then [c.base.cancel.value] else []
  {
    var (b, own) := StopProto(c.base);
    (Connector(b, c.from, c.to), own)
  }

  /** A second Stop cancels nothing. */
  lemma StopIdempotent<V>(c: Connector<V>)
    ensures Stop(Stop(c).0) == (Stop(c).0, [])
  {
  }

  /** `Wait` is the prototype's: it never waits on the downstream daemon. */
  function Wait<V>(c: Connector<V>): (r: seq<Handle>)
    ensures r == [] <==> c.base.wg.None?
    ensures c.base.wg.Some? ==> r == [c.base.wg.value]
  {
    WaitProto(c.base)
  }

  /** `Run`: set the function to the bridge and launch a copy of the prototype. */
  function Run<V>(c: Connector<V>, next: nat): (r: D.Launch<V>)
    ensures r.d.Prototype? && r.d.proto.fn == Bridge && r.d.proto.launched
    ensures r.err.None? <==> !IsLaunched(c)
    ensures KeptOrFresh(In(c), D.In(r.d), next, r.next)
    ensures KeptOrFresh(Out(c), D.Out(r.d), next, r.next)
    ensures KeptOrFresh(Err(c), D.Err(r.d), next, r.next)
  {
    var l := RunProto(c.base.(fn := Bridge), next);
    D.Launch(Prototype(l.inst), l.err, l.next)
  }

  datatype Started<!V> = Started(conn: Connector<V>, err: Option<Error>, next: nat)

  /** The bridge's prologue: fill missing channels, route them through the setters,
      and launch the downstream; a downstream launch error is the bridge's result.
      The downstream writes the connector's output and reports on its error channel. */
  function Start<V>(c: Connector<V>, inCh: Option<Handle>, outCh: Option<Handle>, errCh: Option<Handle>,
                    next: nat): (s: Started<V>)
    ensures next <= s.next && s.conn.from == c.from && s.conn.base.launched == c.base.launched
    ensures KeptOrFresh(inCh, In(s.conn), next, s.next)
    ensures KeptOrFresh(outCh, Out(s.conn), next, s.next) && D.Out(s.conn.to) == Out(s.conn)
    ensures KeptOrFresh(errCh, Err(s.conn), next, s.next) && D.Err(s.conn.to) == Err(s.conn)
    ensures s.err == D.LaunchError(c.to)
    ensures s.err.None? ==> D.IsLaunched(s.conn.to) && D.In(s.conn.to).Some?
    ensures D.In(c.to).Some? ==> D.In(s.conn.to) == D.In(c.to)
    ensures Shape(s.conn.to) == Shape(c.to)
  {
    var i := Fill(inCh, next);
    var o := Fill(outCh, i.1);
    var e := Fill(errCh, o.1);
    var c1 := SetErr(SetOut(SetIn(c, Some(i.0)), Some(o.0)), Some(e.0));
    var rt := D.Run(c1.to, e.1);
    Started(c1.(to := rt.d), rt.err, rt.next)
  }

  datatype Bridged<+V> = Bridged(forwarded: seq<V>, exit: Option<Error>)

  /** The bridge's function: the prologue, then the loop over the connector's input,
      forwarding to the launched downstream's input. A downstream that cannot
      launch ends the bridge with its launch error before anything is forwarded. */
  function BridgeRun<V>(c: Connector<V>, inCh: Option<Handle>, outCh: Option<Handle>, errCh: Option<Handle>,
                        next: nat, input: seq<Event<V>>): (b: Bridged<V>)
    ensures !D.Fresh(c.to) ==> b.forwarded == [] && b.exit == D.LaunchError(c.to)
  {
    var s := Start(c, inCh, outCh, errCh, next);
    if s.err.Some? then Bridged([], s.err)
    else
      var t := ActorDaemonLoop(c.from, input);
      Bridged(t.out, t.exit)
  }

  /** With the downstream launched, the bridge forwards `from`'s answers in input
      order and returns nil, unless `from` fails, whose error it wraps as a
      "'from' call" error. */
  lemma BridgeForwards<V>(c: Connector<V>, inCh: Option<Handle>, outCh: Option<Handle>,
                          errCh: Option<Handle>, next: nat, input: seq<Event<V>>)
    requires D.Fresh(c.to)
    ensures var b := BridgeRun(c, inCh, outCh, errCh, next, input);
      var t := ActorDaemonLoop(c.from, input);
      && |b.forwarded| == Settled(t)
      && (forall i :: 0 <= i < |b.forwarded| ==>
            input[i].msg.Val? && Classify(Call(c.from, input[i].msg)) == Output(b.forwarded[i]))
      && (b.exit.Some? <==> t.halt.CallFailed?)
      && (b.exit.Some? ==> Unwrap(b.exit.value) == Some(t.halt.error))
  {
  }

  // ---- the synchronous façade ----

  /** What the façade sees after sending its input; which case happens is a race
      the model leaves to its caller. */
  datatype Arrival<+V> = ErrArrives(error: Error) | OutArrives(msg: Msg<V>) | OutClosed | Done

  /** The façade's answer: an error value becomes `(nil, err)`, a closed output or
      a cancelled context `(nil, nil)`, an output value is returned as is. */
  function FacadeAnswer<V>(ev: Arrival<V>): (a: Answer<V>)
    ensures a.err.Some? <==> ev.ErrArrives?
    ensures a.err.Some? ==> a.err.value == ev.error && a.out.Nil?
    ensures a.out.Val? <==> ev.OutArrives? && ev.msg.Val?
    ensures ev.OutArrives? ==> a.out == ev.msg
  {
    match ev
    case ErrArrives(e) => Answer(Nil, Some(e))
    case OutArrives(m) => Answer(m, None)
    case OutClosed => Answer(Nil, None)
    case Done => Answer(Nil, None)
  }

  datatype FacadeStep<!V> = FacadeStep(receiver: Connector<V>, launched: bool, bridge: Option<Started<V>>,
                                       answer: Answer<V>, next: nat)

  /** `AsActorFn` as written: launch unless the receiver reports itself launched,
      then answer. Run launches a copy, so the receiver's own flag stays clear; the
      launched bridge's prologue rewires the receiver, whose downstream is now the
      launched one. */
  function FacadeCall<V>(c: Connector<V>, next: nat, ev: Arrival<V>): (s: FacadeStep<V>)
    ensures s.launched <==> !IsLaunched(c)
    ensures IsLaunched(s.receiver) == IsLaunched(c)
    ensures s.answer == FacadeAnswer(ev)
  {
    if IsLaunched(c) then FacadeStep(c, false, None, FacadeAnswer(ev), next)
    else
      var r := Run(c, next);
      if r.err.Some? then FacadeStep(c, true, None, Answer(Nil, r.err), r.next)
      else
        var b := Start(c, D.In(r.d), D.Out(r.d), D.Err(r.d), r.next);
        FacadeStep(b.conn, true, Some(b), FacadeAnswer(ev), b.next)
  }

  /** The as-written façade never sees itself launched: every call launches another
      bridge, and from the second call on that bridge fails at once, because the
      downstream it would launch is the one the first bridge already launched. */
  lemma FacadeRelaunchesEveryCall<V>(c: Connector<V>, next: nat, ev1: Arrival<V>, ev2: Arrival<V>)
    requires !IsLaunched(c) && D.Fresh(c.to)
    ensures var s1 := FacadeCall(c, next, ev1);
      var s2 := FacadeCall(s1.receiver, s1.next, ev2);
      && s1.launched && s1.bridge.Some? && s1.bridge.value.err.None?
      && !IsLaunched(s1.receiver)
      && s2.launched && s2.bridge.Some? && s2.bridge.value.err.Some?
  {
    var s1 := FacadeCall(c, next, ev1);
    assert D.IsLaunched(s1.receiver.to);
  }

  /** The façade with the laziness it intends: it keeps the instance it launched
      and asks that instance whether it is launched. */
  datatype Facade<!V> = Facade(conn: Connector<V>, instance: Option<Daemon<V>>)

  predicate FacadeLaunched<V>(f: Facade<V>)
  {
    f.instance.Some? && D.IsLaunched(f.instance.value)
  }

  datatype LazyStep<!V> = LazyStep(facade: Facade<V>, launched: bool, bridge: Option<Started<V>>,
                                   answer: Answer<V>, next: nat)

  /** `AsActorFn` corrected: launch only when no launched instance is kept. */
  function LazyCall<V>(f: Facade<V>, next: nat, ev: Arrival<V>): (s: LazyStep<V>)
    ensures s.launched <==> !FacadeLaunched(f) && !IsLaunched(f.conn)
    ensures s.launched ==> FacadeLaunched(s.facade)
    ensures FacadeLaunched(f) ==> s.facade == f && s.answer == FacadeAnswer(ev)
  {
    if FacadeLaunched(f) then LazyStep(f, false, None, FacadeAnswer(ev), next)
    else
      var r := Run(f.conn, next);
      if r.err.Some? then LazyStep(f, false, None, Answer(Nil, r.err), r.next)
      else
        var b := Start(f.conn, D.In(r.d), D.Out(r.d), D.Err(r.d), r.next);
        LazyStep(Facade(b.conn, Some(r.d)), true, Some(b), FacadeAnswer(ev), b.next)
  }

  /** The corrected façade launches one bridge on the first call, whose prologue
      succeeds, and no further bridge on any later call. */
  lemma FacadeLaunchesOnce<V>(c: Connector<V>, next: nat, ev1: Arrival<V>, ev2: Arrival<V>, ev3: Arrival<V>)
    requires !IsLaunched(c) && D.Fresh(c.to)
    ensures var s1 := LazyCall(Facade(c, None), next, ev1);
      var s2 := LazyCall(s1.facade, s1.next, ev2);
      var s3 := LazyCall(s2.facade, s2.next, ev3);
      && s1.launched && s1.bridge.Some? && s1.bridge.value.err.None?
      && !s2.launched && !s3.launched
      && s2.answer == FacadeAnswer(ev2) && s3.answer == FacadeAnswer(ev3)
  {
  }
}

=== FILE: actors.dfy ===
/** Actors: synchronous calls and their sequential composition. */
module Actors {
  import opened Types

  /** `Call` of a plain function, and of an actors connector, whose call is the
      composed function: `from` first; a failure or a nil output of `from` ends
      the call; otherwise `to` gets `from`'s output and a failing `to` has its
      output forced to nil. */
  function Call<V>(a: Actor<V>, m: Msg<V>): (r: Answer<V>)
    ensures a.Fn? ==> r == a.fn(m)
    ensures a.Composed? && r.err.Some? ==> r.out.Nil?
    decreases a
  {
    match a
    case Fn(f) => f(m)
    case Composed(from, to) =>
      var first := Call(from, m);
      if first.err.Some? then Answer(Nil, first.err)
      else if first.out.Nil? then Answer(Nil, first.err)
      else
        var second := Call(to, first.out);
        if second.err.Some? then Answer(Nil, second.err)
        else Answer(second.out, None)
  }

  /** `AsActorFn`: a plain function is returned as is; a connector returns its
      composed function. */
  function AsActorFn<V(!new)>(a: Actor<V>): (f: Msg<V> -> Answer<V>)
    ensures forall m :: f(m) == Call(a, m)
    ensures a.Fn? ==> f == a.fn
  {
    match a
    case Fn(g) => g
    case Composed(_, _) => m => Call(a, m)
  }

  function AsActor<V>(a: Actor<V>): Actor<V>
  {
    a
  }

  function NewActor<V>(f: Msg<V> -> Answer<V>): Actor<V>
  {
    Fn(f)
  }

  /** A plain function is its own actor: calling it is calling the function, and
      the conversions hand back what they were given. */
  lemma PlainFunctionIsItsOwnActor<V(!new)>(f: Msg<V> -> Answer<V>, m: Msg<V>)
    ensures Call(NewActor(f), m) == f(m)
    ensures AsActorFn(NewActor(f)) == f
    ensures AsActor(NewActor(f)) == NewActor(f)
  {
  }

  /** The actors connector stores its operands as given. */
  function NewActorsConnector<V>(from: Actor<V>, to: Actor<V>): (c: Actor<V>)
    ensures c.Composed? && c.from == from && c.to == to
  {
    Composed(from, to)
  }

  /** `ConnectActor` on an actor builds an actors connector. */
  function ConnectActor<V>(a: Actor<V>, b: Actor<V>): (c: Actor<V>)
    ensures c == NewActorsConnector(a, b)
  {
    NewActorsConnector(a, b)
  }

  /** `Connect` overwrites both operands of a connector. */
  function Connect<V>(c: Actor<V>, from: Actor<V>, to: Actor<V>): (r: Actor<V>)
    requires c.Composed?
    ensures r.Composed? && r.from == from && r.to == to
  {
    c.(from := from, to := to)
  }

  /** If `from` fails, the connector fails with the same error, a nil output,
      and whatever `to` is. */
  lemma ComposedFromFails<V(!new)>(from: Actor<V>, to: Actor<V>, m: Msg<V>)
    requires Call(from, m).err.Some?
    ensures Call(Composed(from, to), m) == Answer(Nil, Call(from, m).err)
    ensures forall other :: Call(Composed(from, other), m) == Call(Composed(from, to), m)
  {
  }

  /** If `from` answers `(nil, nil)`, so does the connector, whatever `to` is. */
  lemma ComposedFromSilent<V(!new)>(from: Actor<V>, to: Actor<V>, m: Msg<V>)
    requires Classify(Call(from, m)).NoOutput?
    ensures Call(Composed(from, to), m) == Answer(Nil, None)
    ensures forall other :: Call(Composed(from, other), m) == Answer(Nil, None)
  {
  }

  /** Otherwise the connector answers what `to` answers on `from`'s output, with
      the output forced to nil when `to` fails. */
  lemma ComposedForwards<V>(from: Actor<V>, to: Actor<V>, m: Msg<V>)
    requires Classify(Call(from, m)).Output?
    ensures Call(Composed(from, to), m).err == Call(to, Call(from, m).out).err
    ensures Call(Composed(from, to), m).out ==
      (if Call(to, Call(from, m).out).err.Some? then Nil else Call(to, Call(from, m).out).out)
  {
  }

  /** How a connector call reads through `Classify`: both steps succeed exactly
      when the composition succeeds, with `to`'s value. */
  lemma {:induction false} ComposedClassified<V>(from: Actor<V>, to: Actor<V>, m: Msg<V>)
    ensures Classify(Call(Composed(from, to), m)) ==
      match Classify(Call(from, m))
      case Failed(e) => Failed(e)
      case NoOutput => NoOutput
      case Output(y) => Classify(Call(to, Val(y)))
  {
  }

  /** Composition is associative: grouping never changes a connector's answer. */
  lemma {:induction false} ComposeAssociative<V>(a: Actor<V>, b: Actor<V>, c: Actor<V>, m: Msg<V>)
    ensures Call(Composed(Composed(a, b), c), m) == Call(Composed(a, Composed(b, c)), m)
  {
    var ra := Call(a, m);
    if ra.err.None? && ra.out.Val? {
      var rb := Call(b, ra.out);
      if rb.err.None? && rb.out.Val? {
        assert Call(Composed(a, b), m) == Answer(rb.out, None);
      }
    }
  }

  // ---- the plus-one actors of the scenarios ----

  /** Adds one to an integer message; any other input is an input-format error. */
  function AddOne(m: Msg<int>): Answer<int>
  {
    if m.Val? then Answer(Val(m.value + 1), None) else Answer(Nil, Some(Fault("error input format")))
  }

  const PlusOne: Actor<int> := Fn(AddOne)

  /** Actors built from plus-one functions by composition only. */
  ghost predicate IsPlusChain(a: Actor<int>)
  {
    match a
    case Fn(f) => forall x :: f(Val(x)) == Answer(Val(x + 1), None)
    case Composed(f, t) => IsPlusChain(f) && IsPlusChain(t)
  }

  /** The number of plus-one functions in a chain. */
  function Length(a: Actor<int>): nat
  {
    match a
    case Fn(_) => 1
    case Composed(f, t) => Length(f) + Length(t)
  }

  /** However a chain of plus-one actors is grouped, it adds its length. */
  lemma {:induction false} PlusChainAddsLength(a: Actor<int>, x: int)
    requires IsPlusChain(a)
    ensures Call(a, Val(x)) == Answer(Val(x + Length(a)), None)
  {
    match a
    case Fn(f) =>
    case Composed(f, t) =>
      PlusChainAddsLength(f, x);
      PlusChainAddsLength(t, x + Length(f));
  }

  /** Plus-two is plus-one after plus-one; plus-three and plus-six nest it. */
  lemma ActorScenarios()
    ensures var two := ConnectActor(PlusOne, PlusOne);
      && Call(two, Val(0)) == Answer(Val(2), None)
      && Call(ConnectActor(two, PlusOne), Val(0)) == Answer(Val(3), None)
      && Call(ConnectActor(ConnectActor(two, two), two), Val(0)) == Answer(Val(6), None)
  {
    var two := ConnectActor(PlusOne, PlusOne);
    assert IsPlusChain(PlusOne);
    PlusChainAddsLength(two, 0);
    PlusChainAddsLength(ConnectActor(two, PlusOne), 0);
    PlusChainAddsLength(ConnectActor(ConnectActor(two, two), two), 0);
  }
}

=== FILE: cluster.dfy ===
/** `NewDaemonsCluster`: a prototype whose function launches `size` clones of a
    template on the cluster's own channels, then waits for all of them. */
module Clusters {
  import opened Types
  import opened Actors
  import opened Prototypes
  import opened Daemons
  import opened Pipelines

  /** The cluster: an unlaunched prototype with no channels. */
  function NewDaemonsCluster<V>(size: nat, template: Daemon<V>): (d: Daemon<V>)
    ensures d.Prototype? && d.proto.fn == ClusterOf(size, template)
    ensures Fresh(d) && In(d).None? && Out(d).None? && Err(d).None?
  {
    Prototype(NewDaemon(ClusterOf(size, template)))
  }

  /** A clone of the template on the cluster's channels. */
  function Member<V>(template: Daemon<V>, inCh: Handle, outCh: Handle, errCh: Handle): (m: Daemon<V>)
    ensures In(m) == Some(inCh) && Out(m) == Some(outCh) && Err(m) == Some(errCh)
    ensures Shape(m) == Shape(template) && Fresh(m) == Fresh(template)
    ensures LaunchError(m) == LaunchError(template)
  {
    SetErr(SetOut(SetIn(Clone(template), Some(inCh)), Some(outCh)), Some(errCh))
  }

  datatype Spawned<!V> = Spawned(members: seq<Daemon<V>>, err: Option<Error>, next: nat)

  /** The launch loop: clone, wire and launch one member at a time; the first
      failing launch ends the loop with its error. */
  function Spawn<V>(template: Daemon<V>, count: nat, inCh: Handle, outCh: Handle, errCh: Handle,
                    next: nat): (s: Spawned<V>)
    ensures next <= s.next
    ensures s.err.Some? <==> count > 0 && !Fresh(template)
    ensures count > 0 ==> s.err == LaunchError(template)
    ensures s.err.None? ==> |s.members| == count
    ensures s.err.Some? ==> s.members == []
    ensures forall i :: 0 <= i < |s.members| ==>
      && In(s.members[i]) == Some(inCh) && Out(s.members[i]) == Some(outCh) && Err(s.members[i]) == Some(errCh)
      && IsLaunched(s.members[i]) && Shape(s.members[i]) == Shape(template)
    decreases count
  {
    if count == 0 then Spawned([], None, next)
    else
      var r := Run(Member(template, inCh, outCh, errCh), next);
      if r.err.Some? then Spawned([], r.err, r.next)
      else
        var rest := Spawn(template, count - 1, inCh, outCh, errCh, r.next);
        Spawned([r.d] + rest.members, rest.err, rest.next)
  }

  /** The cluster's function up to the wait: fill any missing channel, then spawn. */
  function StartCluster<V>(size: nat, template: Daemon<V>, inCh: Option<Handle>, outCh: Option<Handle>,
                           errCh: Option<Handle>, next: nat): (s: Spawned<V>)
    ensures s.err.Some? <==> size > 0 && !Fresh(template)
    ensures size > 0 ==> s.err == LaunchError(template)
    ensures s.err.None? ==> |s.members| == size
    ensures forall i :: 0 <= i < |s.members| ==>
      && KeptOrFresh(inCh, In(s.members[i]), next, s.next)
      && KeptOrFresh(outCh, Out(s.members[i]), next, s.next)
      && KeptOrFresh(errCh, Err(s.members[i]), next, s.next)
    ensures forall i, j :: 0 <= i < |s.members| && 0 <= j < |s.members| ==>
      In(s.members[i]) == In(s.members[j]) && Out(s.members[i]) == Out(s.members[j]) &&
      Err(s.members[i]) == Err(s.members[j])
  {
    var i := Fill(inCh, next);
    var o := Fill(outCh, i.1);
    var e := Fill(errCh, o.1);
    Spawn(template, size, i.0, o.0, e.0, e.1)
  }

  /** Launching a cluster fans the instance's own channels out to every member:
      exactly `size` launched clones of the template, or, if the template has a
      launched prototype and `size > 0`, an error and no member. */
  lemma ClusterSharesChannels<V>(size: nat, template: Daemon<V>, next: nat)
    ensures var r := Run(NewDaemonsCluster(size, template), next);
      var s := StartCluster(size, template, In(r.d), Out(r.d), Err(r.d), r.next);
      && r.err.None?
      && In(r.d).Some? && Out(r.d).Some? && Err(r.d).Some?
      && (s.err.None? <==> size == 0 || Fresh(template))
      && (size > 0 ==> s.err == LaunchError(template))
      && (s.err.None? ==> |s.members| == size)
      && forall i :: 0 <= i < |s.members| ==>
        In(s.members[i]) == In(r.d) && Out(s.members[i]) == Out(r.d) && Err(s.members[i]) == Err(r.d)
        && IsLaunched(s.members[i]) && Shape(s.members[i]) == Shape(template)
  {
    var r := Run(NewDaemonsCluster(size, template), next);
    var s := Spawn(template, size, In(r.d).value, Out(r.d).value, Err(r.d).value, r.next);
    assert StartCluster(size, template, In(r.d), Out(r.d), Err(r.d), r.next) == s;
  }

  // ---- termination ----

  datatype Action = StopMember(index: nat) | WaitMember(index: nat) | Joined | Closed

  /** The two goroutines of a cluster once every member is launched. The waiter,
      started first, waits on every member in order and then closes `wait`
      (`Closed`). The cluster's own goroutine takes the cancellation case
      `passes` times, each time stopping every member in order and then
      receiving from `wait` (`Joined`), and finally takes the `wait` case and
      returns nil (a last `Joined`). A receive from `wait` completes only after
      `Closed`; apart from that the two logs run side by side, so a member may
      be waited on before, during or after its Stop. */
  datatype Shutdown = Shutdown(main: seq<Action>, waiter: seq<Action>)

  /** `passes` rounds of `round`, each followed by a join, then the final join. */
  function Rounds(round: seq<Action>, passes: nat): (r: seq<Action>)
    ensures |r| >= 1 && r[|r| - 1] == Joined
    ensures |r| == 1 <==> passes == 0
    ensures forall a :: a in r ==> a in round || a == Joined
    ensures passes > 0 ==> |r| > |round| + 1 && r[..|round| + 1] == round + [Joined]
  {
    if passes == 0 then [Joined]
    else
      var rest := Rounds(round, passes - 1);
      assert (round + [Joined] + rest)[..|round| + 1] == round + [Joined];
      round + [Joined] + rest
  }

  /** Stop every member, by index. */
  function Stops(n: nat): (r: seq<Action>)
    ensures |r| == n && forall i :: 0 <= i < n ==> r[i] == StopMember(i)
  {
    seq(n, (i: int) requires 0 <= i => StopMember(i))
  }

  /** Wait on every member, by index. */
  function Waits(n: nat): (r: seq<Action>)
    ensures |r| == n && forall i :: 0 <= i < n ==> r[i] == WaitMember(i)
  {
    seq(n, (i: int) requires 0 <= i => WaitMember(i))
  }

  /** What the rounds of stops contain, member by member. */
  lemma RoundsStop(stops: seq<Action>, n: nat, passes: nat)
    requires stops == Stops(n)
    ensures var main := Rounds(stops, passes);
      forall j :: 0 <= j < |main| ==> main[j] == Joined || (main[j].StopMember? && main[j].index < n)
    ensures forall i :: 0 <= i < n ==> (StopMember(i) in Rounds(stops, passes) <==> passes > 0)
    ensures passes > 0 ==> |Rounds(stops, passes)| > n && Rounds(stops, passes)[n] == Joined
    ensures forall k :: 0 <= k < n && passes > 0 ==> Rounds(stops, passes)[k] == StopMember(k)
  {
    var main := Rounds(stops, passes);
    forall j | 0 <= j < |main|
      ensures main[j] == Joined || (main[j].StopMember? && main[j].index < n)
    {
      assert main[j] in main;
    }
    forall a | a in stops
      ensures a.StopMember? && a.index < n
    {
      var k :| 0 <= k < n && stops[k] == a;
    }
    if passes > 0 {
      assert main[..n + 1] == stops + [Joined];
      forall k | 0 <= k < n
        ensures main[k] == StopMember(k)
      {
        assert main[k] == main[..n + 1][k] == stops[k];
      }
      assert main[n] == main[..n + 1][n];
    } else {
      assert main == [Joined];
    }
  }

  /** The cluster's shutdown after `passes` cancellation rounds: the waiter waits
      on every member, in order, before it closes `wait`; the cluster's own
      goroutine stops members (all of them, in order, before its first join) only
      if cancelled, never waits on a member itself, and ends by joining. */
  function ClusterShutdown(n: nat, passes: nat): (r: Shutdown)
    ensures |r.waiter| == n + 1 && r.waiter[n] == Closed
    ensures forall i :: 0 <= i < n ==> r.waiter[i] == WaitMember(i)
    ensures |r.main| >= 1 && r.main[|r.main| - 1] == Joined
    ensures forall j :: 0 <= j < |r.main| ==> r.main[j] == Joined || (r.main[j].StopMember? && r.main[j].index < n)
    ensures forall i :: 0 <= i < n ==> (StopMember(i) in r.main <==> passes > 0)
    ensures passes > 0 ==> |r.main| > n && r.main[n] == Joined
    ensures forall k :: 0 <= k < n && passes > 0 ==> r.main[k] == StopMember(k)
  {
    var stops := Stops(n);
    var main := Rounds(stops, passes);
    RoundsStop(stops, n, passes);
    var waits := Waits(n);
    var waiter := waits + [Closed];
    assert forall i :: 0 <= i < n ==> waiter[i] == waits[i];
    Shutdown(main, waiter)
  }

  /** How the cluster's function ends: the two goroutines' logs, the members as
      the logged stops leave them, the scopes those stops cancelled, and the
      error returned. */
  datatype Exit<!V> = Exit(log: Shutdown, members: seq<Daemon<V>>, cancelled: seq<Handle>, err: Option<Error>)

  /** What the cluster's function returns: the first launch error, with no
      shutdown at all, else nil once the waiter has waited on every member.
      The logged stops act on the members: with no cancellation they are left
      as launched, otherwise they end as after one `StopAll`, whatever the
      number of rounds. */
  function ClusterExit<V>(s: Spawned<V>, passes: nat): (r: Exit<V>)
    ensures r.err == s.err
    ensures s.err.Some? ==> r == Exit(Shutdown([], []), s.members, [], s.err)
    ensures s.err.None? ==>
      && (forall i :: 0 <= i < |s.members| ==> WaitMember(i) in r.log.waiter)
      && Closed in r.log.waiter && |r.log.main| >= 1 && r.log.main[|r.log.main| - 1] == Joined
    ensures s.err.None? && passes == 0 ==> r.members == s.members && r.cancelled == []
    ensures s.err.None? && passes > 0 ==> (r.members, r.cancelled) == StopAll(s.members)
    ensures |r.members| == |s.members|
  {
    if s.err.Some? then Exit(Shutdown([], []), s.members, [], s.err)
    else
      var sd := ClusterShutdown(|s.members|, passes);
      assert sd.waiter[|s.members|] == Closed;
      var stopped := StopRounds(s.members, passes);
      assert passes > 0 ==> stopped == StopAll(s.members) by {
        if passes > 0 {
          StopRoundsOnce(s.members, passes);
        }
      }
      Exit(sd, stopped.0, stopped.1, None)
  }

  /** Stop every member, in order. */
  function StopAll<V>(ms: seq<Daemon<V>>): (r: (seq<Daemon<V>>, seq<Handle>))
    ensures |r.0| == |ms|
    ensures forall i :: 0 <= i < |ms| ==> r.0[i] == Stop(ms[i]).d
  {
    if |ms| == 0 then ([], [])
    else
      var rest := StopAll(ms[1..]);
      ([Stop(ms[0]).d] + rest.0, Stop(ms[0]).cancelled + rest.1)
  }

  /** The cluster's cancellation branch may run more than once; every round after
      the first cancels nothing. */
  lemma {:induction false} StopAllIdempotent<V>(ms: seq<Daemon<V>>)
    ensures StopAll(StopAll(ms).0) == (StopAll(ms).0, [])
    decreases |ms|
  {
    if |ms| > 0 {
      StopIdempotent(ms[0]);
      StopAllIdempotent(ms[1..]);
      assert StopAll(ms).0[1..] == StopAll(ms[1..]).0;
    }
  }

  /** The members after `passes` rounds of the cancellation case, and every scope
      those rounds cancelled, in order. */
  function StopRounds<V>(ms: seq<Daemon<V>>, passes: nat): (seq<Daemon<V>>, seq<Handle>)
    decreases passes
  {
    if passes == 0 then (ms, [])
    else
      var first := StopAll(ms);
      var rest := StopRounds(first.0, passes - 1);
      (rest.0, first.1 + rest.1)
  }

  /** However many times the cancellation case runs, the members end up as after
      one round, and only the first round cancels anything. */
  lemma {:induction false} StopRoundsOnce<V>(ms: seq<Daemon<V>>, passes: nat)
    requires passes >= 1
    ensures StopRounds(ms, passes) == StopAll(ms)
    decreases passes
  {
    var first := StopAll(ms);
    if passes == 1 {
      assert first.1 + [] == first.1;
    } else {
      StopRoundsOnce(first.0, passes - 1);
      StopAllIdempotent(ms);
      assert first.1 + [] == first.1;
    }
  }

  /** A five-member cluster of plus-one daemons launches five members, each running
      the plus-one loop, so 1 comes out as 2 and 2 as 3 whichever member takes it. */
  lemma ClusterScenario(inCh: Handle, outCh: Handle, errCh: Handle, next: nat)
    ensures var s := Spawn(PlusOneDaemon, 5, inCh, outCh, errCh, next);
      && s.err.None? && |s.members| == 5
      && forall i :: 0 <= i < 5 ==>
        Pipeline(s.members[i], [1]) == Some([2]) && Pipeline(s.members[i], [2]) == Some([3])
  {
    assert Shifted([1], 1) == [2];
    assert Shifted([2], 1) == [3];
    assert IsPlusChain(PlusOne);
    assert PlusLeaves(Shape(PlusOneDaemon)) && Gain(Shape(PlusOneDaemon)) == 1;
    var s := Spawn(PlusOneDaemon, 5, inCh, outCh, errCh, next);
    forall i | 0 <= i < |s.members|
      ensures Pipeline(s.members[i], [1]) == Some([2]) && Pipeline(s.members[i], [2]) == Some([3])
    {
      assert s.members[i].Prototype?;
      PlusPipelineShifts(s.members[i], [1]);
      PlusPipelineShifts(s.members[i], [2]);
    }
  }
}

=== FILE: connectors.dfy ===
/** The constructors of daemon connectors, and how an actor is launched. */
module Connectors {
  import opened Types
  import opened Actors
  import opened Prototypes
  import opened Daemons

  /** `NewDaemonsConnector`: clones of both operands and no error channel yet. The
      connector reads from `from`'s input, writes to `to`'s output, and counts as
      launched only when both operands do. */
  function NewDaemonsConnector<V>(from: Daemon<V>, to: Daemon<V>): (c: Daemon<V>)
    ensures c.Connected? && c.from == Clone(from) && c.to == Clone(to) && c.errChan.None?
    ensures In(c) == In(from) && Out(c) == Out(to) && Err(c).None?
    ensures IsLaunched(c) <==> IsLaunched(from) && IsLaunched(to)
    ensures Fresh(c) <==> Fresh(from) && Fresh(to)
  {
    Connected(None, Clone(from), Clone(to))
  }

  /** `NewActorDaemonConnector`: the actor becomes an unlaunched daemon in front of `to`. */
  function NewActorDaemonConnector<V>(from: Actor<V>, to: Daemon<V>): (c: Daemon<V>)
    ensures c == NewDaemonsConnector(AsDaemon(from), to)
    ensures c.from.Prototype? && c.from.proto.fn == FromActor(from) && Fresh(c.from)
    ensures In(c).None? && Out(c) == Out(to)
  {
    NewDaemonsConnector(AsDaemon(from), to)
  }

  /** `ActorFn.ConnectDaemon`: the actor in front of the daemon, through a
      daemons connector. */
  function ConnectDaemon<V>(a: Actor<V>, d: Daemon<V>): (c: Daemon<V>)
    ensures c == NewActorDaemonConnector(a, d)
    ensures c.to == d && Shape(c) == Join(Node(FromActor(a)), Shape(d))
  {
    NewActorDaemonConnector(a, d)
  }

  /** `NewDaemonActorConnector`: the actor becomes an unlaunched daemon behind `from`. */
  function NewDaemonActorConnector<V>(from: Daemon<V>, to: Actor<V>): (c: Daemon<V>)
    ensures c == NewDaemonsConnector(from, AsDaemon(to))
    ensures c.to.Prototype? && c.to.proto.fn == FromActor(to) && Fresh(c.to)
    ensures In(c) == In(from) && Out(c).None?
  {
    NewDaemonsConnector(from, AsDaemon(to))
  }

  /** `ActorFn.Run`: the actor's daemon, launched. Launching an actor never fails,
      and its three channels are new and distinct. */
  function ActorRun<V>(a: Actor<V>, next: nat): (r: Launch<V>)
    ensures r == Run(AsDaemon(a), next)
    ensures r.err.None? && IsLaunched(r.d)
    ensures r.d.Prototype? && r.d.proto.fn == FromActor(a)
    ensures KeptOrFresh(None, In(r.d), next, r.next)
    ensures KeptOrFresh(None, Out(r.d), next, r.next)
    ensures KeptOrFresh(None, Err(r.d), next, r.next)
    ensures In(r.d) != Out(r.d) && In(r.d) != Err(r.d) && Out(r.d) != Err(r.d)
    ensures HeldBelow(r.d, r.next)
  {
    Run(AsDaemon(a), next)
  }

  /** Connectors nest: a connector of unlaunched daemons launches, and then every
      `to` in the tree, however deep, reads what its `from` writes. */
  lemma {:induction false} NestedConnectorsLaunch<V>(a: Daemon<V>, b: Daemon<V>, next: nat)
    requires Fresh(a) && Fresh(b)
    ensures var r := Run(NewDaemonsConnector(a, b), next);
      && r.err.None? && IsLaunched(r.d)
      && In(r.d.to) == Out(r.d.from) && Out(r.d.from).Some?
      && Err(r.d.from) == Err(r.d) && Err(r.d.to) == Err(r.d)
      && Wired(r.d)
  {
    ConnectorRunWires(None, a, b, next);
    RunWires(NewDaemonsConnector(a, b), next);
  }

  /** Two plus-one actors joined as daemons form an unlaunched connector that
      launches, and relaunching the launched connector is refused. */
  lemma ActorDaemonsLaunchOnce(a: Actor<int>, b: Actor<int>, next: nat, again: nat)
    ensures var c := NewDaemonsConnector(AsDaemon(a), AsDaemon(b));
      && !IsLaunched(c)
      && Run(c, next).err.None?
      && Run(Run(c, next).d, again) == Launch(Run(c, next).d, Some(AlreadyLaunched), again)
  {
    var c := NewDaemonsConnector(AsDaemon(a), AsDaemon(b));
    var r := Run(c, next);
    assert r.d.Connected? && IsLaunched(r.d.from) && IsLaunched(r.d.to);
  }
}

=== FILE: daemon_actor.dfy ===
/** `daemonActorConnectorInstance`: a prototype of its own whose function launches
    an upstream daemon and calls an actor on everything the upstream writes.

    The connector shares the embedded prototype's fields; only `In`, the setters,
    `Stop`, `Wait` and `Clone` are its own. Its `Run` sets the prototype's function
    to the bridge and launches a copy of the embedded prototype, so the instance it
    returns is a plain prototype.
 */
module DaemonActorConnectors {
  import opened Types
  import opened Prototypes
  import opened Loops
  import D = Daemons

  datatype Connector<!V> = Connector(base: Proto<V>, from: Daemon<V>, to: Actor<V>)

  /** `Clone`: a copy with a clone of the upstream and the same actor. */
  function Clone<V>(c: Connector<V>): (r: Connector<V>)
    ensures r.base == c.base && r.from == D.Clone(c.from) && r.to == c.to
    ensures In(r) == In(c) && Out(r) == Out(c) && Err(r) == Err(c) && IsLaunched(r) == IsLaunched(c)
  {
    Connector(c.base, D.Clone(c.from), c.to)
  }

  /** `In` reports the upstream's input; output and error channel are the prototype's. */
  function In<V>(c: Connector<V>): Option<Handle>
  {
    D.In(c.from)
  }

  function Out<V>(c: Connector<V>): Option<Handle>
  {
    c.base.outCh
  }

  function Err<V>(c: Connector<V>): Option<Handle>
  {
    c.base.errCh
  }

  /** The prototype's flag; the upstream's does not count. */
  predicate IsLaunched<V>(c: Connector<V>)
  {
    c.base.launched
  }

  /** The connector reads its input at the upstream's first prototype; its output,
      error channel and flag are the embedded prototype's, whatever the upstream. */
  lemma Reports<V>(c: Connector<V>, u: Daemon<V>)
    ensures In(c) == Frontier(c.from)[0].inCh
    ensures Out(c.(from := u)) == Out(c) == c.base.outCh
    ensures Err(c.(from := u)) == Err(c) == c.base.errCh
    ensures IsLaunched(c.(from := u)) == IsLaunched(c) == c.base.launched
  {
    D.EndsOfFrontier(c.from);
  }

  /** `SetIn` sets the prototype's input and the upstream's. */
  function SetIn<V>(c: Connector<V>, h: Option<Handle>): (r: Connector<V>)
    ensures In(r) == h && r.base.inCh == h
    ensures Out(r) == Out(c) && Err(r) == Err(c) && r.to == c.to && r.base.launched == c.base.launched
    ensures D.Out(r.from) == D.Out(c.from) && D.Err(r.from) == D.Err(c.from)
    ensures Shape(r.from) == Shape(c.from) && D.LaunchError(r.from) == D.LaunchError(c.from)
    ensures r.base == c.base.(inCh := h) && r.from == D.SetIn(c.from, h)
  {
    Connector(c.base.(inCh := h), D.SetIn(c.from, h), c.to)
  }

  /** `SetOut` changes the connector only: the upstream keeps its own output. */
  function SetOut<V>(c: Connector<V>, h: Option<Handle>): (r: Connector<V>)
    ensures Out(r) == h && r.from == c.from && r.to == c.to
    ensures In(r) == In(c) && Err(r) == Err(c) && r.base.launched == c.base.launched
    ensures r.base == c.base.(outCh := h)
  {
    Connector(c.base.(outCh := h), c.from, c.to)
  }

  /** `SetErr` gives the connector and the upstream one error channel. */
  function SetErr<V>(c: Connector<V>, h: Option<Handle>): (r: Connector<V>)
    ensures Err(r) == h && D.Err(r.from) == h
    ensures In(r) == In(c) && Out(r) == Out(c) && r.to == c.to && r.base.launched == c.base.launched
    ensures D.Out(r.from) == D.Out(c.from)
    ensures Shape(r.from) == Shape(c.from) && D.LaunchError(r.from) == D.LaunchError(c.from)
    ensures r.base == c.base.(errCh := h) && r.from == D.SetErr(c.from, h)
  {
    Connector(c.base.(errCh := h), D.SetErr(c.from, h), c.to)
  }

  /** `Stop`: the upstream first, then the connector's own prototype. */
  function Stop<V>(c: Connector<V>): (r: (Connector<V>, seq<Handle>))
    ensures r.0.to == c.to && r.0.base == StopProto(c.base).0 && r.0.from == D.Stop(c.from).d
  {
    var sf := D.Stop(c.from);
    var (b, own) := StopProto(c.base);
    (Connector(b, sf.d, c.to), sf.cancelled + own)
  }

  /** `Wait`: the upstream first, then the connector's own prototype. */
  function Wait<V>(c: Connector<V>): seq<Handle>
  {
    D.Wait(c.from) + WaitProto(c.base)
  }

  /** Stop cancels the upstream's launched scopes, in launch order, then the
      connector's own; a second Stop cancels nothing. */
  lemma StopCascades<V>(c: Connector<V>)
    ensures Stop(c).1 == D.CancelScopes(Frontier(c.from)) + StopProto(c.base).1
    ensures Stop(Stop(c).0).1 == []
  {
    D.StopCancelsLaunchedScopes(c.from);
    D.StopIdempotent(c.from);
  }

  /** Wait joins the upstream's groups, then the connector's own. */
  lemma WaitCascades<V>(c: Connector<V>)
    ensures Wait(c) == D.JoinGroups(Frontier(c.from)) + WaitProto(c.base)
  {
  }

  /** `Run`: set the function to the bridge and launch a copy of the prototype. */
  function Run<V>(c: Connector<V>, next: nat): (r: D.Launch<V>)
    ensures r.d.Prototype? && r.d.proto.fn == Bridge && r.d.proto.launched
    ensures r.err.None? <==> !IsLaunched(c)
    ensures KeptOrFresh(c.base.inCh, D.In(r.d), next, r.next)
    ensures KeptOrFresh(Out(c), D.Out(r.d), next, r.next)
    ensures KeptOrFresh(Err(c), D.Err(r.d), next, r.next)
  {
    var l := RunProto(c.base.(fn := Bridge), next);
    D.Launch(Prototype(l.inst), l.err, l.next)
  }

  datatype Started<!V> = Started(conn: Connector<V>, err: Option<Error>, next: nat)

  /** The bridge's prologue: fill missing channels, route them through the setters,
      and launch the upstream; an upstream launch error is the bridge's result. */
  function Start<V>(c: Connector<V>, inCh: Option<Handle>, outCh: Option<Handle>, errCh: Option<Handle>,
                    next: nat): (s: Started<V>)
    ensures next <= s.next && s.conn.to == c.to && s.conn.base.launched == c.base.launched
    ensures KeptOrFresh(inCh, In(s.conn), next, s.next) && s.conn.base.inCh == In(s.conn)
    ensures KeptOrFresh(outCh, Out(s.conn), next, s.next)
    ensures KeptOrFresh(errCh, Err(s.conn), next, s.next) && D.Err(s.conn.from) == Err(s.conn)
    ensures s.err == D.LaunchError(c.from)
    ensures s.err.None? ==> D.IsLaunched(s.conn.from) && D.Out(s.conn.from).Some?
    ensures D.Out(c.from).Some? ==> D.Out(s.conn.from) == D.Out(c.from)
  {
    var i := Fill(inCh, next);
    var o := Fill(outCh, i.1);
    var e := Fill(errCh, o.1);
    var c1 := SetErr(SetOut(SetIn(c, Some(i.0)), Some(o.0)), Some(e.0));
    var rf := D.Run(c1.from, e.1);
    Started(c1.(from := rf.d), rf.err, rf.next)
  }

  datatype Bridged<+V> = Bridged(out: seq<V>, exit: Option<Error>)

  /** The bridge's function: the prologue, then the loop over what the launched
      upstream writes. An upstream that cannot launch ends the bridge with its
      launch error before anything is written. */
  function BridgeRun<V>(c: Connector<V>, inCh: Option<Handle>, outCh: Option<Handle>, errCh: Option<Handle>,
                        next: nat, upstream: seq<Event<V>>): (b: Bridged<V>)
    ensures !D.Fresh(c.from) ==> b.out == [] && b.exit == D.LaunchError(c.from)
  {
    var s := Start(c, inCh, outCh, errCh, next);
    if s.err.Some? then Bridged([], s.err)
    else
      var t := DaemonActorLoop(c.to, upstream);
      Bridged(t.out, t.exit)
  }

  /** With the upstream launched, the bridge writes `to`'s values on the upstream's
      messages and returns nil, unless `to` fails, whose error it wraps as a
      "'to' call" error. */
  lemma {:induction false} BridgeEmits<V>(c: Connector<V>, inCh: Option<Handle>, outCh: Option<Handle>,
                                          errCh: Option<Handle>, next: nat, upstream: seq<Event<V>>)
    requires D.Fresh(c.from)
    ensures var b := BridgeRun(c, inCh, outCh, errCh, next, upstream);
      var t := DaemonActorLoop(c.to, upstream);
      && b.out == Served(c.to, SettledMsgs(t, upstream))
      && (b.exit.Some? <==> t.halt.CallFailed?)
      && (b.exit.Some? ==> b.exit == Some(ToCallFailed(t.halt.error)) && Unwrap(b.exit.value) == Some(t.halt.error))
  {
    DaemonActorLoopEmits(c.to, upstream);
  }
}

=== FILE: daemons.dfy ===
/** Daemon trees: the channel routing of a daemons connector, clone, stop and
    wait cascades, and `Run` of a prototype or of a daemons connector.
 */
module Daemons {
  import opened Types
  import opened Prototypes

  /** `In`: a connector's input is its `from`'s input. */
  function In<V>(d: Daemon<V>): Option<Handle>
  {
    match d
    case Prototype(p) => p.inCh
    case Connected(_, f, _) => In(f)
  }

  /** `Out`: a connector's output is its `to`'s output. */
  function Out<V>(d: Daemon<V>): Option<Handle>
  {
    match d
    case Prototype(p) => p.outCh
    case Connected(_, _, t) => Out(t)
  }

  /** `Err`: a connector reports its own shared error channel. */
  function Err<V>(d: Daemon<V>): Option<Handle>
  {
    match d
    case Prototype(p) => p.errCh
    case Connected(e, _, _) => e
  }

  /** `IsLaunched`: a prototype's flag; for a connector, both sides'. */
  predicate IsLaunched<V>(d: Daemon<V>)
  {
    match d
    case Prototype(p) => p.launched
    case Connected(_, f, t) => IsLaunched(f) && IsLaunched(t)
  }

  /** No prototype of the daemon is launched. */
  predicate Fresh<V>(d: Daemon<V>)
    ensures Fresh(d) ==> !IsLaunched(d)
  {
    match d
    case Prototype(p) => !p.launched
    case Connected(_, f, t) => Fresh(f) && Fresh(t)
  }

  /** The error a launch of `d` returns, read off its flags alone: a launched
      prototype reports "daemon already launched", a connector whose two sides
      are launched reports "already launched", and any other connector reports
      the first error of launching `from`, then `to`. */
  function LaunchError<V>(d: Daemon<V>): (r: Option<Error>)
    ensures r.None? <==> Fresh(d)
    ensures d.Prototype? ==> (r == Some(DaemonAlreadyLaunched) <==> d.proto.launched)
    ensures d.Connected? && IsLaunched(d) ==> r == Some(AlreadyLaunched)
  {
    match d
    case Prototype(p) => if p.launched then Some(DaemonAlreadyLaunched) else None
    case Connected(_, f, t) =>
      if IsLaunched(f) && IsLaunched(t) then Some(AlreadyLaunched)
      else if LaunchError(f).Some? then LaunchError(f)
      else LaunchError(t)
  }

  /** Every connector of the tree is wired: its `to` reads the channel its `from`
      writes, and both sides report the connector's own error channel. */
  predicate Wired<V>(d: Daemon<V>)
  {
    match d
    case Prototype(_) => true
    case Connected(e, f, t) =>
      && Out(f).Some? && In(t) == Out(f)
      && e.Some? && Err(f) == e && Err(t) == e
      && Wired(f) && Wired(t)
  }

  /** A tree reads its input through its first prototype and writes its output
      through its last. */
  lemma {:induction false} EndsOfFrontier<V>(d: Daemon<V>)
    ensures In(d) == Frontier(d)[0].inCh
    ensures Out(d) == Frontier(d)[|Frontier(d)| - 1].outCh
  {
    match d
    case Prototype(_) =>
    case Connected(_, f, t) =>
      EndsOfFrontier(f);
      EndsOfFrontier(t);
  }

  ghost predicate AllLaunched<V>(ps: seq<Proto<V>>)
  {
    forall i :: 0 <= i < |ps| ==> ps[i].launched
  }

  ghost predicate NoneLaunched<V>(ps: seq<Proto<V>>)
  {
    forall i :: 0 <= i < |ps| ==> !ps[i].launched
  }

  lemma FlagsAppend<V>(a: seq<Proto<V>>, b: seq<Proto<V>>)
    ensures AllLaunched(a + b) <==> AllLaunched(a) && AllLaunched(b)
    ensures NoneLaunched(a + b) <==> NoneLaunched(a) && NoneLaunched(b)
  {
    assert forall i :: 0 <= i < |a| ==> (a + b)[i] == a[i];
    assert forall i :: 0 <= i < |b| ==> (a + b)[|a| + i] == b[i];
  }

  /** A tree reports launched exactly when every prototype in it is launched, and
      is fresh exactly when none is. */
  lemma {:induction false} FlagsOfFrontier<V>(d: Daemon<V>)
    ensures IsLaunched(d) <==> AllLaunched(Frontier(d))
    ensures Fresh(d) <==> NoneLaunched(Frontier(d))
  {
    match d
    case Prototype(p) =>
      assert Frontier(d) == [p] && Frontier(d)[0] == p;
    case Connected(_, f, t) =>
      FlagsOfFrontier(f);
      FlagsOfFrontier(t);
      FlagsAppend(Frontier(f), Frontier(t));
  }

  /** In a wired tree every prototype writes its errors to the tree's one error
      channel. */
  lemma {:induction false} WiredSharesErrors<V>(d: Daemon<V>)
    requires Wired(d)
    ensures forall i :: 0 <= i < |Frontier(d)| ==> Frontier(d)[i].errCh == Err(d)
  {
    match d
    case Prototype(p) =>
      assert Frontier(d) == [p];
    case Connected(e, f, t) =>
      WiredSharesErrors(f);
      WiredSharesErrors(t);
      var ff, ft := Frontier(f), Frontier(t);
      assert Frontier(d) == ff + ft;
      forall i | 0 <= i < |Frontier(d)|
        ensures Frontier(d)[i].errCh == Err(d)
      {
        if i < |ff| {
          assert Frontier(d)[i] == ff[i];
        } else {
          assert Frontier(d)[i] == ft[i - |ff|];
        }
      }
  }

  /** `SetIn`: routed to the leftmost prototype; nothing else changes. */
  function SetIn<V>(d: Daemon<V>, c: Option<Handle>): (r: Daemon<V>)
    ensures In(r) == c && Out(r) == Out(d) && Err(r) == Err(d)
    ensures Shape(r) == Shape(d) && IsLaunched(r) == IsLaunched(d) && Fresh(r) == Fresh(d)
    ensures LaunchError(r) == LaunchError(d)
  {
    match d
    case Prototype(p) => Prototype(p.(inCh := c))
    case Connected(e, f, t) => Connected(e, SetIn(f, c), t)
  }

  /** `SetOut`: routed to the rightmost prototype; nothing else changes. */
  function SetOut<V>(d: Daemon<V>, c: Option<Handle>): (r: Daemon<V>)
    ensures Out(r) == c && In(r) == In(d) && Err(r) == Err(d)
    ensures Shape(r) == Shape(d) && IsLaunched(r) == IsLaunched(d) && Fresh(r) == Fresh(d)
    ensures LaunchError(r) == LaunchError(d)
  {
    match d
    case Prototype(p) => Prototype(p.(outCh := c))
    case Connected(e, f, t) => Connected(e, f, SetOut(t, c))
  }

  /** `SetErr`: a connector keeps the channel and gives it to both sides. */
  function SetErr<V>(d: Daemon<V>, c: Option<Handle>): (r: Daemon<V>)
    ensures Err(r) == c && In(r) == In(d) && Out(r) == Out(d)
    ensures r.Connected? ==> Err(r.from) == c && Err(r.to) == c
    ensures Shape(r) == Shape(d) && IsLaunched(r) == IsLaunched(d) && Fresh(r) == Fresh(d)
    ensures LaunchError(r) == LaunchError(d)
  {
    match d
    case Prototype(p) => Prototype(p.(errCh := c))
    case Connected(_, f, t) => Connected(c, SetErr(f, c), SetErr(t, c))
  }

  /** `SetIn` changes the input of the leftmost prototype and nothing else:
      every other prototype and every connector's error channel are kept. */
  lemma {:induction false} SetInFrame<V>(d: Daemon<V>, c: Option<Handle>)
    ensures Frontier(SetIn(d, c)) == [Frontier(d)[0].(inCh := c)] + Frontier(d)[1..]
    ensures Links(SetIn(d, c)) == Links(d)
  {
    match d
    case Prototype(p) =>
    case Connected(e, f, t) =>
      SetInFrame(f, c);
      assert Frontier(d)[0] == Frontier(f)[0];
      assert Frontier(d)[1..] == Frontier(f)[1..] + Frontier(t);
  }

  /** `SetOut` changes the output of the rightmost prototype and nothing else. */
  lemma {:induction false} SetOutFrame<V>(d: Daemon<V>, c: Option<Handle>)
    ensures var n := |Frontier(d)|;
      Frontier(SetOut(d, c)) == Frontier(d)[..n - 1] + [Frontier(d)[n - 1].(outCh := c)]
    ensures Links(SetOut(d, c)) == Links(d)
  {
    match d
    case Prototype(p) =>
    case Connected(e, f, t) =>
      SetOutFrame(t, c);
      var ff, ft := Frontier(f), Frontier(t);
      assert Frontier(d) == ff + ft;
      assert Frontier(d)[|Frontier(d)| - 1] == ft[|ft| - 1];
      assert Frontier(d)[..|Frontier(d)| - 1] == ff + ft[..|ft| - 1];
  }

  /** `SetErr` gives every prototype and every connector of the tree the new
      error channel, and changes nothing else. */
  lemma {:induction false} SetErrFrame<V>(d: Daemon<V>, c: Option<Handle>)
    ensures |Frontier(SetErr(d, c))| == |Frontier(d)|
    ensures forall i :: 0 <= i < |Frontier(d)| ==> Frontier(SetErr(d, c))[i] == Frontier(d)[i].(errCh := c)
    ensures |Links(SetErr(d, c))| == |Links(d)|
    ensures forall i :: 0 <= i < |Links(d)| ==> Links(SetErr(d, c))[i] == c
  {
    match d
    case Prototype(p) =>
    case Connected(e, f, t) =>
      SetErrFrame(f, c);
      SetErrFrame(t, c);
      var ff, ft := Frontier(f), Frontier(t);
      var rf, rt := Frontier(SetErr(f, c)), Frontier(SetErr(t, c));
      assert Frontier(SetErr(d, c)) == rf + rt;
      forall i | 0 <= i < |Frontier(d)|
        ensures Frontier(SetErr(d, c))[i] == Frontier(d)[i].(errCh := c)
      {
        if i < |ff| {
          assert Frontier(d)[i] == ff[i];
        } else {
          assert Frontier(d)[i] == ft[i - |ff|];
        }
      }
      var lf, lt := Links(SetErr(f, c)), Links(SetErr(t, c));
      assert Links(SetErr(d, c)) == lf + [c] + lt;
      forall i | 0 <= i < |Links(d)|
        ensures Links(SetErr(d, c))[i] == c
      {
        if i < |lf| {
          assert Links(SetErr(d, c))[i] == lf[i];
        } else if i > |lf| {
          assert Links(SetErr(d, c))[i] == lt[i - |lf| - 1];
        }
      }
  }

  /** Routing a channel keeps a wired tree wired: `SetIn` and `SetOut` touch only
      the tree's own ends, and `SetErr` with a channel gives every side the one
      the connectors share. */
  lemma {:induction false} SettersKeepWired<V>(d: Daemon<V>, c: Option<Handle>)
    requires Wired(d)
    ensures Wired(SetIn(d, c)) && Wired(SetOut(d, c))
    ensures c.Some? ==> Wired(SetErr(d, c))
  {
    match d
    case Prototype(_) =>
    case Connected(e, f, t) =>
      SettersKeepWired(f, c);
      SettersKeepWired(t, c);
  }

  /** `Clone`: a shallow copy of every prototype, so the same function, the same
      channel handles and the same launched flag. */
  function Clone<V>(d: Daemon<V>): (r: Daemon<V>)
    ensures r == d
    ensures IsLaunched(r) == IsLaunched(d)
  {
    match d
    case Prototype(p) => Prototype(p)
    case Connected(e, f, t) => Connected(e, Clone(f), Clone(t))
  }

  // ---- stop and wait ----

  datatype Stopping<!V> = Stopping(d: Daemon<V>, cancelled: seq<Handle>)

  /** The scopes a Stop of each prototype cancels, in order. */
  function CancelScopes<V>(ps: seq<Proto<V>>): seq<Handle>
  {
    if |ps| == 0 then [] else StopProto(ps[0]).1 + CancelScopes(ps[1..])
  }

  /** The join groups a Wait of each prototype waits on, in order. */
  function JoinGroups<V>(ps: seq<Proto<V>>): seq<Handle>
  {
    if |ps| == 0 then [] else WaitProto(ps[0]) + JoinGroups(ps[1..])
  }

  lemma {:induction false} CancelScopesAppend<V>(a: seq<Proto<V>>, b: seq<Proto<V>>)
    ensures CancelScopes(a + b) == CancelScopes(a) + CancelScopes(b)
    decreases |a|
  {
    if |a| > 0 {
      assert (a + b)[0] == a[0];
      assert (a + b)[1..] == a[1..] + b;
      CancelScopesAppend(a[1..], b);
    } else {
      assert a + b == b;
    }
  }

  lemma {:induction false} JoinGroupsAppend<V>(a: seq<Proto<V>>, b: seq<Proto<V>>)
    ensures JoinGroups(a + b) == JoinGroups(a) + JoinGroups(b)
    decreases |a|
  {
    if |a| > 0 {
      assert (a + b)[0] == a[0];
      assert (a + b)[1..] == a[1..] + b;
      JoinGroupsAppend(a[1..], b);
    } else {
      assert a + b == b;
    }
  }

  /** `Stop`: a connector stops `from`, then `to`. */
  function Stop<V>(d: Daemon<V>): (s: Stopping<V>)
    ensures Shape(s.d) == Shape(d)
    ensures In(s.d) == In(d) && Out(s.d) == Out(d) && Err(s.d) == Err(d)
    ensures IsLaunched(s.d) == IsLaunched(d) && Fresh(s.d) == Fresh(d)
    ensures |Frontier(s.d)| == |Frontier(d)|
    ensures forall i :: 0 <= i < |Frontier(d)| ==> Frontier(s.d)[i] == StopProto(Frontier(d)[i]).0
    ensures Links(s.d) == Links(d)
  {
    match d
    case Prototype(p) =>
      var (q, c) := StopProto(p);
      Stopping(Prototype(q), c)
    case Connected(e, f, t) =>
      var sf := Stop(f);
      var st := Stop(t);
      Stopping(Connected(e, sf.d, st.d), sf.cancelled + st.cancelled)
  }

  /** `Wait`: a connector waits on `from`, then on `to`, so every prototype that
      has a join group is joined, in launch order. */
  function Wait<V>(d: Daemon<V>): (r: seq<Handle>)
    ensures r == JoinGroups(Frontier(d))
  {
    match d
    case Prototype(p) =>
      assert [p][1..] == [];
      WaitProto(p)
    case Connected(_, f, t) =>
      JoinGroupsAppend(Frontier(f), Frontier(t));
      Wait(f) + Wait(t)
  }

  /** Stop cancels, once each and in launch order, the scope of every launched
      prototype that still holds one. */
  lemma {:induction false} StopCancelsLaunchedScopes<V>(d: Daemon<V>)
    ensures Stop(d).cancelled == CancelScopes(Frontier(d))
  {
    match d
    case Prototype(p) =>
      assert [p][1..] == [];
    case Connected(e, f, t) =>
      StopCancelsLaunchedScopes(f);
      StopCancelsLaunchedScopes(t);
      CancelScopesAppend(Frontier(f), Frontier(t));
  }

  /** A second Stop changes nothing and cancels nothing. */
  lemma {:induction false} StopIdempotent<V>(d: Daemon<V>)
    ensures Stop(Stop(d).d) == Stopping(Stop(d).d, [])
  {
    match d
    case Prototype(p) =>
      StopProtoIdempotent(p);
    case Connected(e, f, t) =>
      StopIdempotent(f);
      StopIdempotent(t);
  }

  // ---- launch ----

  datatype Launch<!V> = Launch(d: Daemon<V>, err: Option<Error>, next: nat)

  /** The channels and sides of a connector once wired, before either side runs. */
  datatype Wiring<!V> = Wiring(errChan: Handle, from: Daemon<V>, to: Daemon<V>, next: nat)

  /** The first half of a daemons connector's function: fill the missing channels,
      route input to `from`, output to `to`, the error channel to both, then give
      `from` an output channel if it has none and make it `to`'s input. */
  function Wire<V>(from: Daemon<V>, to: Daemon<V>, inCh: Option<Handle>, outCh: Option<Handle>,
                   errs: Option<Handle>, next: nat): (w: Wiring<V>)
    ensures next <= w.next
    ensures Shape(w.from) == Shape(from) && Shape(w.to) == Shape(to)
    ensures IsLaunched(w.from) == IsLaunched(from) && Fresh(w.from) == Fresh(from)
    ensures IsLaunched(w.to) == IsLaunched(to) && Fresh(w.to) == Fresh(to)
    ensures KeptOrFresh(inCh, In(w.from), next, w.next)
    ensures KeptOrFresh(outCh, Out(w.to), next, w.next)
    ensures KeptOrFresh(errs, Some(w.errChan), next, w.next)
    ensures KeptOrFresh(Out(from), Out(w.from), next, w.next)
    ensures In(w.to) == Out(w.from)
    ensures Err(w.from) == Some(w.errChan) && Err(w.to) == Some(w.errChan)
    ensures LaunchError(w.from) == LaunchError(from) && LaunchError(w.to) == LaunchError(to)
    ensures DrawnApart([inCh, outCh, errs, Out(from)], [In(w.from), Out(w.to), Some(w.errChan), Out(w.from)])
  {
    var i := Fill(inCh, next);
    var o := Fill(outCh, i.1);
    var e := Fill(errs, o.1);
    var f1 := SetErr(SetIn(from, Some(i.0)), Some(e.0));
    var t1 := SetErr(SetOut(to, Some(o.0)), Some(e.0));
    var f2 := if Out(f1).None? then SetOut(f1, Some(e.1)) else f1;
    Wiring(e.0, f2, SetIn(t1, Out(f2)), if Out(f1).None? then e.1 + 1 else e.1)
  }

  /** A daemons connector refuses to launch only when both sides are launched. */
  predicate Refuses<V>(d: Daemon<V>)
  {
    d.Connected? && IsLaunched(d.from) && IsLaunched(d.to)
  }

  /** `Run`. A prototype launches a copy of itself. A connector works on a clone:
      unless both sides are launched it wires them, launches `from`, and
      launches `to` only if `from` launched without error. Channels already set
      are kept; missing ones are drawn fresh. */
  function Run<V>(d: Daemon<V>, next: nat): (r: Launch<V>)
    ensures next <= r.next
    ensures Shape(r.d) == Shape(d)
    ensures Refuses(d) ==> r == Launch(d, Some(AlreadyLaunched), next)
    ensures !Refuses(d) ==> KeptOrFresh(In(d), In(r.d), next, r.next)
    ensures !Refuses(d) ==> KeptOrFresh(Out(d), Out(r.d), next, r.next)
    ensures !Refuses(d) ==> KeptOrFresh(Err(d), Err(r.d), next, r.next)
    ensures r.err == LaunchError(d)
    ensures r.err.None? <==> Fresh(d)
    ensures r.err.None? ==> IsLaunched(r.d)
    decreases Shape(d)
  {
    match d
    case Prototype(p) =>
      var l := RunProto(p, next);
      Launch(Prototype(l.inst), l.err, l.next)
    case Connected(e, f, t) =>
      var from, to := Clone(f), Clone(t);
      if IsLaunched(from) && IsLaunched(to) then
        Launch(Connected(e, from, to), Some(AlreadyLaunched), next)
      else
        var w := Wire(from, to, In(from), Out(to), e, next);
        var rf := Run(w.from, w.next);
        if rf.err.Some? then
          Launch(Connected(Some(w.errChan), rf.d, w.to), rf.err, rf.next)
        else
          var rt := Run(w.to, rf.next);
          Launch(Connected(Some(w.errChan), rf.d, rt.d), rt.err, rt.next)
  }

  /** After a connector launches, `to` reads what `from` writes, both sides and the
      connector share one error channel (the connector's own, if it had one).
      When `from` cannot launch, its launch error is returned and `to` is left as
      it was; otherwise `from` stays launched and `to`'s launch error, if any, is
      returned. */
  lemma ConnectorRunWires<V>(e: Option<Handle>, f: Daemon<V>, t: Daemon<V>, next: nat)
    requires !(IsLaunched(f) && IsLaunched(t))
    ensures var r := Run(Connected(e, f, t), next);
      && r.d.Connected?
      && Out(r.d.from).Some? && In(r.d.to) == Out(r.d.from)
      && r.d.errChan.Some? && Err(r.d.from) == r.d.errChan && Err(r.d.to) == r.d.errChan
      && (e.Some? ==> r.d.errChan == e)
      && (!Fresh(f) ==> r.err == LaunchError(f) && IsLaunched(r.d.to) == IsLaunched(t) && Fresh(r.d.to) == Fresh(t))
      && (Fresh(f) ==> IsLaunched(r.d.from) && r.err == LaunchError(t))
  {
    var w := Wire(f, t, In(f), Out(t), e, next);
    var rf := Run(w.from, w.next);
    assert !Refuses(w.from) ==> KeptOrFresh(Out(w.from), Out(rf.d), w.next, rf.next);
    assert !Refuses(w.from) ==> KeptOrFresh(Err(w.from), Err(rf.d), w.next, rf.next);
    if rf.err.None? {
      var rt := Run(w.to, rf.next);
      assert !Refuses(w.to) ==> KeptOrFresh(In(w.to), In(rt.d), rf.next, rt.next);
      assert !Refuses(w.to) ==> KeptOrFresh(Err(w.to), Err(rt.d), rf.next, rt.next);
    }
  }

  /** The input, output and error channel a launch draws for a daemon are
      distinct channels. */
  lemma RunDrawsApart<V>(d: Daemon<V>, next: nat)
    requires !Refuses(d)
    ensures var r := Run(d, next);
      DrawnApart([In(d), Out(d), Err(d)], [In(r.d), Out(r.d), Err(r.d)])
  {
    match d
    case Prototype(p) =>
    case Connected(e, f, t) =>
      var w := Wire(f, t, In(f), Out(t), e, next);
      var before := [In(f), Out(t), e, Out(f)];
      var after := [In(w.from), Out(w.to), Some(w.errChan), Out(w.from)];
      assert DrawnApart(before, after);
      assert before[0].None? && before[1].None? ==> after[0] != after[1];
      assert before[0].None? && before[2].None? ==> after[0] != after[2];
      assert before[1].None? && before[2].None? ==> after[1] != after[2];
      var rf := Run(w.from, w.next);
      assert In(rf.d) == In(w.from);
      var r := Run(d, next);
      assert In(r.d) == In(w.from) && Err(r.d) == Some(w.errChan);
      if rf.err.None? {
        var rt := Run(w.to, rf.next);
        assert Out(rt.d) == Out(w.to);
      }
      assert Out(r.d) == Out(w.to);
  }

  /** Launching an unlaunched tree wires every connector in it, however deep. */
  lemma {:induction false} RunWires<V>(d: Daemon<V>, next: nat)
    requires Fresh(d)
    ensures Wired(Run(d, next).d)
    decreases Shape(d)
  {
    match d
    case Prototype(_) =>
    case Connected(e, f, t) =>
      ConnectorRunWires(e, f, t, next);
      var w := Wire(f, t, In(f), Out(t), e, next);
      RunWires(w.from, w.next);
      RunWires(w.to, Run(w.from, w.next).next);
  }

  // ---- fresh handles ----

  lemma {:induction false} HeldBelowGrows<V>(d: Daemon<V>, n: nat, m: nat)
    requires HeldBelow(d, n) && n <= m
    ensures HeldBelow(d, m)
  {
    match d
    case Prototype(_) =>
    case Connected(_, f, t) =>
      HeldBelowGrows(f, n, m);
      HeldBelowGrows(t, n, m);
  }

  /** The channels a daemon reports are among those it holds. */
  lemma {:induction false} ReportedBelow<V>(d: Daemon<V>, n: nat)
    requires HeldBelow(d, n)
    ensures Below(In(d), n) && Below(Out(d), n) && Below(Err(d), n)
  {
    match d
    case Prototype(_) =>
    case Connected(_, f, t) =>
      ReportedBelow(f, n);
      ReportedBelow(t, n);
  }

  /** A setter adds no handle but the one it is given. */
  lemma {:induction false} SettersKeepBelow<V>(d: Daemon<V>, c: Option<Handle>, n: nat)
    requires HeldBelow(d, n) && Below(c, n)
    ensures HeldBelow(SetIn(d, c), n) && HeldBelow(SetOut(d, c), n) && HeldBelow(SetErr(d, c), n)
  {
    match d
    case Prototype(_) =>
    case Connected(_, f, t) =>
      SettersKeepBelow(f, c, n);
      SettersKeepBelow(t, c, n);
  }

  /** Wiring holds only handles drawn before the counter it returns. */
  lemma WireKeepsBelow<V>(from: Daemon<V>, to: Daemon<V>, inCh: Option<Handle>, outCh: Option<Handle>,
                          errs: Option<Handle>, next: nat)
    requires HeldBelow(from, next) && HeldBelow(to, next)
    requires Below(inCh, next) && Below(outCh, next) && Below(errs, next)
    ensures var w := Wire(from, to, inCh, outCh, errs, next);
      HeldBelow(w.from, w.next) && HeldBelow(w.to, w.next) && w.errChan < w.next
  {
    var w := Wire(from, to, inCh, outCh, errs, next);
    var n := w.next;
    var i := Fill(inCh, next);
    var o := Fill(outCh, i.1);
    var e := Fill(errs, o.1);
    HeldBelowGrows(from, next, n);
    HeldBelowGrows(to, next, n);
    SettersKeepBelow(from, Some(i.0), n);
    SettersKeepBelow(SetIn(from, Some(i.0)), Some(e.0), n);
    var f1 := SetErr(SetIn(from, Some(i.0)), Some(e.0));
    SettersKeepBelow(to, Some(o.0), n);
    SettersKeepBelow(SetOut(to, Some(o.0)), Some(e.0), n);
    var t1 := SetErr(SetOut(to, Some(o.0)), Some(e.0));
    if Out(f1).None? {
      SettersKeepBelow(f1, Some(e.1), n);
    }
    ReportedBelow(w.from, n);
    SettersKeepBelow(t1, Out(w.from), n);
  }

  /** A launch holds only handles drawn before the counter it returns, so every
      handle it draws is one the daemon did not hold. */
  lemma {:induction false} RunKeepsBelow<V>(d: Daemon<V>, next: nat)
    requires HeldBelow(d, next)
    ensures HeldBelow(Run(d, next).d, Run(d, next).next)
    decreases Shape(d)
  {
    match d
    case Prototype(_) =>
    case Connected(e, f, t) =>
      if !(IsLaunched(f) && IsLaunched(t)) {
        ReportedBelow(f, next);
        ReportedBelow(t, next);
        var w := Wire(f, t, In(f), Out(t), e, next);
        WireKeepsBelow(f, t, In(f), Out(t), e, next);
        RunKeepsBelow(w.from, w.next);
        var rf := Run(w.from, w.next);
        HeldBelowGrows(w.to, w.next, rf.next);
        if rf.err.None? {
          RunKeepsBelow(w.to, rf.next);
          var rt := Run(w.to, rf.next);
          HeldBelowGrows(rf.d, rf.next, rt.next);
        }
      }
  }
}

=== FILE: loops.dfy ===
/** The per-message loops of the three daemon functions that wrap an actor.

    A loop reads a finite sequence of events from its input channel: a message,
    or the cancellation winning the receive-select. The end of the sequence is a
    closed channel. Each loop is a pure function from the events to a Trace: what
    it emitted downstream, what it put on the error channel, why it stopped, the
    error the daemon function returns, and how many events it consumed.
 */
module Loops {
  import opened Types
  import opened Actors

  datatype Event<+V> = Recv(msg: Msg<V>) | Cancel

  datatype Halt = Closed | Cancelled | NilInput | NilResult | CallFailed(error: Error)

  datatype Trace<+V> = Trace(out: seq<V>, errs: seq<Error>, halt: Halt, exit: Option<Error>, consumed: nat)

  /** 1 when the loop stopped on the message it consumed last, else 0. */
  function Stopper(h: Halt): nat
  {
    if h.NilInput? || h.NilResult? || h.CallFailed? then 1 else 0
  }

  /** The number of consumed messages the loop went past. */
  function Settled<V>(t: Trace<V>): int
  {
    t.consumed - Stopper(t.halt)
  }

  /** Facts every loop shares: it consumes only messages, stops at the end of a
      closed input or on a cancellation, and otherwise on a message. */
  ghost predicate Ended<V>(t: Trace<V>, evs: seq<Event<V>>)
  {
    && t.consumed <= |evs|
    && (forall i :: 0 <= i < t.consumed ==> evs[i].Recv?)
    && Stopper(t.halt) <= t.consumed
    && (t.halt.Closed? ==> t.consumed == |evs|)
    && (t.halt.Cancelled? ==> t.consumed < |evs| && evs[t.consumed].Cancel?)
  }

  /** Non-nil values fed one by one to an input that is then closed. */
  function Feed<V>(xs: seq<V>): (evs: seq<Event<V>>)
    ensures |evs| == |xs|
    ensures forall i :: 0 <= i < |xs| ==> evs[i] == Recv(Val(xs[i]))
  {
    if |xs| == 0 then [] else [Recv(Val(xs[0]))] + Feed(xs[1..])
  }

  /** The messages among some events, in order. */
  function Msgs<V>(evs: seq<Event<V>>): seq<Msg<V>>
  {
    if |evs| == 0 then []
    else (if evs[0].Recv? then [evs[0].msg] else []) + Msgs(evs[1..])
  }

  /** Reference: the values an actor outputs on some messages, in order. */
  function Served<V>(a: Actor<V>, ms: seq<Msg<V>>): seq<V>
  {
    if |ms| == 0 then []
    else (match Classify(Call(a, ms[0])) case Output(v) => [v] case _ => []) + Served(a, ms[1..])
  }

  /** Reference: the errors an actor returns on some messages, in order. */
  function Faults<V>(a: Actor<V>, ms: seq<Msg<V>>): seq<Error>
  {
    if |ms| == 0 then []
    else (match Classify(Call(a, ms[0])) case Failed(e) => [e] case _ => []) + Faults(a, ms[1..])
  }

  // ---- ActorFn.AsDaemonFn ----

  /** The loop of an actor run as a daemon: an error goes to the error channel
      and the loop goes on, a `(nil, nil)` answer stops it, a value goes out.
      Every exit returns a nil error. */
  function ActorLoop<V>(a: Actor<V>, evs: seq<Event<V>>): (t: Trace<V>)
    ensures Ended(t, evs)
    ensures t.halt.Closed? || t.halt.Cancelled? || t.halt.NilResult?
    ensures t.exit.None?
    ensures t.halt.NilResult? ==> Classify(Call(a, evs[t.consumed - 1].msg)).NoOutput?
    ensures forall i :: 0 <= i < Settled(t) ==> !Classify(Call(a, evs[i].msg)).NoOutput?
    ensures |t.out| + |t.errs| == Settled(t)
    decreases |evs|
  {
    if |evs| == 0 then Trace([], [], Closed, None, 0)
    else match evs[0]
      case Cancel => Trace([], [], Cancelled, None, 0)
      case Recv(m) =>
        match Classify(Call(a, m))
        case Failed(e) =>
          var t := ActorLoop(a, evs[1..]);
          t.(errs := [e] + t.errs, consumed := t.consumed + 1)
        case NoOutput => Trace([], [], NilResult, None, 1)
        case Output(v) =>
          var t := ActorLoop(a, evs[1..]);
          t.(out := [v] + t.out, consumed := t.consumed + 1)
  }

  /** The messages a trace went past, as the loop received them. */
  function SettledMsgs<V>(t: Trace<V>, evs: seq<Event<V>>): seq<Msg<V>>
    requires Ended(t, evs)
  {
    Msgs(evs[..Settled(t)])
  }

  lemma SettledMsgsStep<V>(t: Trace<V>, evs: seq<Event<V>>, t': Trace<V>)
    requires |evs| > 0 && evs[0].Recv?
    requires Ended(t', evs[1..])
    requires t.consumed == t'.consumed + 1 && t.halt == t'.halt
    ensures Ended(t, evs)
    ensures SettledMsgs(t, evs) == [evs[0].msg] + SettledMsgs(t', evs[1..])
  {
    var k := Settled(t);
    assert evs[..k] == [evs[0]] + evs[1..][..k - 1];
    assert (evs[..k])[1..] == evs[1..][..k - 1];
  }

  /** Each consumed input contributes its value to the output and its error to the
      error stream, in input order; the input that stopped the loop contributes nothing. */
  lemma {:induction false} ActorLoopEmits<V>(a: Actor<V>, evs: seq<Event<V>>)
    ensures ActorLoop(a, evs).out == Served(a, SettledMsgs(ActorLoop(a, evs), evs))
    ensures ActorLoop(a, evs).errs == Faults(a, SettledMsgs(ActorLoop(a, evs), evs))
    decreases |evs|
  {
    if |evs| > 0 && evs[0].Recv? {
      var m := evs[0].msg;
      var t, t' := ActorLoop(a, evs), ActorLoop(a, evs[1..]);
      match Classify(Call(a, m))
      case NoOutput =>
        assert SettledMsgs(t, evs) == [];
      case Failed(e) =>
        ActorLoopEmits(a, evs[1..]);
        SettledMsgsStep(t, evs, t');
        assert t.out == t'.out && t.errs == [e] + t'.errs;
      case Output(v) =>
        ActorLoopEmits(a, evs[1..]);
        SettledMsgsStep(t, evs, t');
        assert t.out == [v] + t'.out && t.errs == t'.errs;
    }
  }

  // ---- daemonActorConnectorInstance.AsDaemonFn ----

  /** The loop of the daemon-to-actor bridge over the upstream's output: a nil
      value ends it, a failing `to` ends it with the wrapped error, a nil answer is
      skipped, a value goes out. It never writes the error channel itself. */
  function DaemonActorLoop<V>(to: Actor<V>, evs: seq<Event<V>>): (t: Trace<V>)
    ensures Ended(t, evs)
    ensures t.errs == [] && !t.halt.NilResult?
    ensures t.exit == (if t.halt.CallFailed? then Some(ToCallFailed(t.halt.error)) else None)
    ensures t.halt.NilInput? ==> evs[t.consumed - 1].msg.Nil?
    ensures t.halt.CallFailed? ==>
      evs[t.consumed - 1].msg.Val? && Classify(Call(to, evs[t.consumed - 1].msg)) == Failed(t.halt.error)
    ensures forall i :: 0 <= i < Settled(t) ==> evs[i].msg.Val? && !Classify(Call(to, evs[i].msg)).Failed?
    ensures |t.out| <= Settled(t)
    decreases |evs|
  {
    if |evs| == 0 then Trace([], [], Closed, None, 0)
    else match evs[0]
      case Cancel => Trace([], [], Cancelled, None, 0)
      case Recv(Nil) => Trace([], [], NilInput, None, 1)
      case Recv(Val(x)) =>
        match Classify(Call(to, Val(x)))
        case Failed(e) => Trace([], [], CallFailed(e), Some(ToCallFailed(e)), 1)
        case NoOutput =>
          var t := DaemonActorLoop(to, evs[1..]);
          t.(consumed := t.consumed + 1)
        case Output(y) =>
          var t := DaemonActorLoop(to, evs[1..]);
          t.(out := [y] + t.out, consumed := t.consumed + 1)
  }

  /** The bridge's output is `to`'s values on the upstream messages it went past. */
  lemma {:induction false} DaemonActorLoopEmits<V>(to: Actor<V>, evs: seq<Event<V>>)
    ensures DaemonActorLoop(to, evs).out == Served(to, SettledMsgs(DaemonActorLoop(to, evs), evs))
    decreases |evs|
  {
    var t := DaemonActorLoop(to, evs);
    if |evs| > 0 && evs[0].Recv? && evs[0].msg.Val? && !Classify(Call(to, evs[0].msg)).Failed? {
      DaemonActorLoopEmits(to, evs[1..]);
      SettledMsgsStep(t, evs, DaemonActorLoop(to, evs[1..]));
    }
  }

  // ---- actorDaemonConnectorInstance.AsDaemonFn ----

  /** The loop of the actor-to-daemon bridge over its own input: a nil value ends
      it, a failing `from` ends it with the wrapped error, a nil answer ends it,
      a value is forwarded to the downstream daemon's input. */
  function ActorDaemonLoop<V>(from: Actor<V>, evs: seq<Event<V>>): (t: Trace<V>)
    ensures Ended(t, evs)
    ensures t.errs == []
    ensures t.exit == (if t.halt.CallFailed? then Some(FromCallFailed(t.halt.error)) else None)
    ensures t.halt.NilInput? ==> evs[t.consumed - 1].msg.Nil?
    ensures t.halt.NilResult? ==>
      evs[t.consumed - 1].msg.Val? && Classify(Call(from, evs[t.consumed - 1].msg)).NoOutput?
    ensures t.halt.CallFailed? ==>
      evs[t.consumed - 1].msg.Val? && Classify(Call(from, evs[t.consumed - 1].msg)) == Failed(t.halt.error)
    ensures |t.out| == Settled(t)
    ensures forall i :: 0 <= i < Settled(t) ==>
      evs[i].msg.Val? && Classify(Call(from, evs[i].msg)) == Output(t.out[i])
    decreases |evs|
  {
    if |evs| == 0 then Trace([], [], Closed, None, 0)
    else match evs[0]
      case Cancel => Trace([], [], Cancelled, None, 0)
      case Recv(Nil) => Trace([], [], NilInput, None, 1)
      case Recv(Val(x)) =>
        match Classify(Call(from, Val(x)))
        case Failed(e) => Trace([], [], CallFailed(e), Some(FromCallFailed(e)), 1)
        case NoOutput => Trace([], [], NilResult, None, 1)
        case Output(y) =>
          var t := ActorDaemonLoop(from, evs[1..]);
          t.(out := [y] + t.out, consumed := t.consumed + 1)
  }

  // ---- where the three loops part ----

  /** On one non-nil message the loops differ only in what a nil answer and an
      error do: the actor loop stops on a nil answer and goes on after an error;
      the daemon-to-actor bridge skips a nil answer and stops on an error; the
      actor-to-daemon bridge stops on both. A value goes on in all three. */
  lemma OneMessagePolicies<V>(a: Actor<V>, x: V, rest: seq<Event<V>>)
    ensures var evs := [Recv(Val(x))] + rest;
      match Classify(Call(a, Val(x)))
      case NoOutput =>
        && ActorLoop(a, evs) == Trace([], [], NilResult, None, 1)
        && ActorDaemonLoop(a, evs) == Trace([], [], NilResult, None, 1)
        && DaemonActorLoop(a, evs) == DaemonActorLoop(a, rest).(consumed := DaemonActorLoop(a, rest).consumed + 1)
      case Failed(e) =>
        && ActorLoop(a, evs) == ActorLoop(a, rest).(errs := [e] + ActorLoop(a, rest).errs,
                                                      consumed := ActorLoop(a, rest).consumed + 1)
        && DaemonActorLoop(a, evs) == Trace([], [], CallFailed(e), Some(ToCallFailed(e)), 1)
        && ActorDaemonLoop(a, evs) == Trace([], [], CallFailed(e), Some(FromCallFailed(e)), 1)
      case Output(y) =>
        && ActorLoop(a, evs) == ActorLoop(a, rest).(out := [y] + ActorLoop(a, rest).out,
                                                     consumed := ActorLoop(a, rest).consumed + 1)
        && DaemonActorLoop(a, evs) == DaemonActorLoop(a, rest).(out := [y] + DaemonActorLoop(a, rest).out,
                                                                 consumed := DaemonActorLoop(a, rest).consumed + 1)
        && ActorDaemonLoop(a, evs) == ActorDaemonLoop(a, rest).(out := [y] + ActorDaemonLoop(a, rest).out,
                                                                 consumed := ActorDaemonLoop(a, rest).consumed + 1)
  {
    assert ([Recv(Val(x))] + rest)[1..] == rest;
  }

  /** A nil message ends both bridges quietly, while the actor loop hands it to
      its actor like any other message. */
  lemma NilMessagePolicies<V>(a: Actor<V>, rest: seq<Event<V>>)
    ensures var evs := [Recv(Nil)] + rest;
      && DaemonActorLoop(a, evs) == Trace([], [], NilInput, None, 1)
      && ActorDaemonLoop(a, evs) == Trace([], [], NilInput, None, 1)
      && ActorLoop(a, evs).consumed >= 1
      && (Classify(Call(a, Nil)).NoOutput? <==> ActorLoop(a, evs).halt.NilResult? && ActorLoop(a, evs).consumed == 1)
  {
    var evs := [Recv(Nil)] + rest;
    assert evs[1..] == rest;
  }
}

=== FILE: pipeline.dfy ===
/** Streams through launched daemon trees of actor loops.

    A stream passes through a prototype only while it is launched and runs an
    actor loop, and from one side of a connector to the other only when `to`
    reads the channel `from` writes. Launching an unlaunched tree makes both true
    everywhere (`RunWires`), so a tree whose prototypes all run actor loops passes
    a stream through its leaves from left to right. The stream is finite: it ends
    where the model's input ends.
 */
module Pipelines {
  import opened Types
  import opened Actors
  import opened Loops
  import opened Prototypes
  import opened Daemons
  import opened Connectors

  /** What a daemon tree writes for some values fed to its input; `None` when the
      stream is not carried: a prototype that is not launched or runs something
      other than an actor loop, or a connector whose `to` does not read the
      channel its `from` writes. */
  function Pipeline<V>(d: Daemon<V>, xs: seq<V>): Option<seq<V>>
  {
    match d
    case Prototype(p) =>
      if p.launched && p.fn.FromActor? then Some(ActorLoop(p.fn.actor, Feed(xs)).out) else None
    case Connected(_, f, t) =>
      if Out(f).None? || In(t) != Out(f) then None
      else
        match Pipeline(f, xs)
        case None => None
        case Some(ys) => Pipeline(t, ys)
  }

  /** Only a launched tree carries a stream, and only across a connector whose
      `to` reads what its `from` writes. */
  lemma {:induction false} PipelineNeedsLaunch<V>(d: Daemon<V>, xs: seq<V>)
    ensures Pipeline(d, xs).Some? ==> IsLaunched(d)
    ensures Pipeline(d, xs).Some? && d.Connected? ==> Out(d.from).Some? && In(d.to) == Out(d.from)
  {
    match d
    case Prototype(p) =>
    case Connected(_, f, t) =>
      PipelineNeedsLaunch(f, xs);
      if Pipeline(f, xs).Some? {
        PipelineNeedsLaunch(t, Pipeline(f, xs).value);
      }
  }

  /** Every leaf runs a chain of plus-one actors. */
  ghost predicate PlusLeaves(s: Skeleton<int>)
  {
    match s
    case Node(b) => b.FromActor? && IsPlusChain(b.actor)
    case Join(f, t) => PlusLeaves(f) && PlusLeaves(t)
  }

  /** The plus-one functions of a tree, counted over its leaves. */
  function Gain(s: Skeleton<int>): nat
  {
    match s
    case Node(b) => if b.FromActor? then Length(b.actor) else 0
    case Join(f, t) => Gain(f) + Gain(t)
  }

  function Shifted(xs: seq<int>, k: int): (ys: seq<int>)
    ensures |ys| == |xs|
    ensures forall i :: 0 <= i < |xs| ==> ys[i] == xs[i] + k
  {
    if |xs| == 0 then [] else [xs[0] + k] + Shifted(xs[1..], k)
  }

  lemma ShiftedTwice(xs: seq<int>, a: int, b: int)
    ensures Shifted(Shifted(xs, a), b) == Shifted(xs, a + b)
  {
    assert forall i :: 0 <= i < |xs| ==> Shifted(Shifted(xs, a), b)[i] == Shifted(xs, a + b)[i];
  }

  /** A plus-one chain's loop passes every value on, shifted by the chain's length,
      and ends only when its input does. */
  lemma {:induction false} PlusLoopShifts(a: Actor<int>, xs: seq<int>)
    requires IsPlusChain(a)
    ensures ActorLoop(a, Feed(xs)).out == Shifted(xs, Length(a))
    ensures ActorLoop(a, Feed(xs)).halt.Closed? && ActorLoop(a, Feed(xs)).consumed == |xs|
    decreases |xs|
  {
    if |xs| > 0 {
      var evs := Feed(xs);
      PlusChainAddsLength(a, xs[0]);
      assert evs[0] == Recv(Val(xs[0]));
      assert Classify(Call(a, Val(xs[0]))) == Output(xs[0] + Length(a));
      assert evs[1..] == Feed(xs[1..]);
      PlusLoopShifts(a, xs[1..]);
      var t := ActorLoop(a, Feed(xs[1..]));
      assert ActorLoop(a, evs) == t.(out := [xs[0] + Length(a)] + t.out, consumed := t.consumed + 1);
      assert Shifted(xs, Length(a)) == [xs[0] + Length(a)] + Shifted(xs[1..], Length(a));
    }
  }

  /** A launched, wired tree of plus-one chains shifts every value by its total
      gain, in order. */
  lemma {:induction false} PlusPipelineShifts(d: Daemon<int>, xs: seq<int>)
    requires PlusLeaves(Shape(d)) && Wired(d) && IsLaunched(d)
    ensures Pipeline(d, xs) == Some(Shifted(xs, Gain(Shape(d))))
  {
    match d
    case Prototype(p) =>
      assert p.launched && p.fn.FromActor? && Gain(Shape(d)) == Length(p.fn.actor);
      PlusLoopShifts(p.fn.actor, xs);
    case Connected(_, f, t) =>
      assert Out(f).Some? && In(t) == Out(f);
      assert Wired(f) && Wired(t) && IsLaunched(f) && IsLaunched(t);
      assert PlusLeaves(Shape(f)) && PlusLeaves(Shape(t));
      var ys := Shifted(xs, Gain(Shape(f)));
      PlusPipelineShifts(f, xs);
      PlusPipelineShifts(t, ys);
      assert Pipeline(d, xs) == Pipeline(t, ys);
      ShiftedTwice(xs, Gain(Shape(f)), Gain(Shape(t)));
      assert Gain(Shape(d)) == Gain(Shape(f)) + Gain(Shape(t));
  }

  const PlusOneDaemon: Daemon<int> := AsDaemon(PlusOne)
  const PlusTwo: Daemon<int> := NewDaemonsConnector(PlusOneDaemon, PlusOneDaemon)
  const PlusFour: Daemon<int> := NewDaemonsConnector(PlusTwo, PlusTwo)
  const PlusEight: Daemon<int> := NewDaemonsConnector(PlusFour, PlusFour)
  const PlusSixteen: Daemon<int> := NewDaemonsConnector(PlusEight, PlusEight)

  /** Each doubling is an unlaunched tree of plus-one loops with twice the gain. */
  lemma PlusTrees()
    ensures PlusLeaves(Shape(PlusTwo)) && Gain(Shape(PlusTwo)) == 2 && Fresh(PlusTwo)
    ensures PlusLeaves(Shape(PlusFour)) && Gain(Shape(PlusFour)) == 4 && Fresh(PlusFour)
    ensures PlusLeaves(Shape(PlusEight)) && Gain(Shape(PlusEight)) == 8 && Fresh(PlusEight)
    ensures PlusLeaves(Shape(PlusSixteen)) && Gain(Shape(PlusSixteen)) == 16 && Fresh(PlusSixteen)
  {
    assert IsPlusChain(PlusOne);
    assert PlusLeaves(Shape(PlusOneDaemon)) && Gain(Shape(PlusOneDaemon)) == 1;
  }

  /** An unlaunched tree carries no stream, whatever its prototypes run. */
  lemma UnlaunchedIsSilent<V>(d: Daemon<V>, xs: seq<V>)
    requires Fresh(d)
    ensures Pipeline(d, xs).None?
  {
    PipelineNeedsLaunch(d, xs);
  }

  /** An unlaunched tree of plus-one loops launches, and the launched instance
      shifts every value by the tree's gain. */
  lemma LaunchedPlusTree(d: Daemon<int>, next: nat, xs: seq<int>)
    requires PlusLeaves(Shape(d)) && Fresh(d)
    ensures Run(d, next).err.None?
    ensures Pipeline(Run(d, next).d, xs) == Some(Shifted(xs, Gain(Shape(d))))
  {
    RunWires(d, next);
    PlusPipelineShifts(Run(d, next).d, xs);
  }

  /** Two plus-one daemons carry nothing before they are launched; once
      launched they map 0 to 2 and then 2 to 4. */
  lemma PlusTwoScenario(next: nat)
    ensures Pipeline(PlusTwo, [0, 2]).None?
    ensures Run(PlusTwo, next).err.None?
    ensures Pipeline(Run(PlusTwo, next).d, [0, 2]) == Some([2, 4])
  {
    assert Shifted([0, 2], 2) == [2, 4];
    PlusTrees();
    UnlaunchedIsSilent(PlusTwo, [0, 2]);
    LaunchedPlusTree(PlusTwo, next, [0, 2]);
  }

  /** Doubled up twice more, the tree launches and maps 0 to 8. */
  lemma PlusEightScenario(next: nat)
    ensures Run(PlusEight, next).err.None?
    ensures Pipeline(Run(PlusEight, next).d, [0]) == Some([8])
  {
    assert Shifted([0], 8) == [8];
    PlusTrees();
    LaunchedPlusTree(PlusEight, next, [0]);
  }

  /** Doubled once more, the tree launches and maps 0 to 16. */
  lemma PlusSixteenScenario(next: nat)
    ensures Run(PlusSixteen, next).err.None?
    ensures Pipeline(Run(PlusSixteen, next).d, [0]) == Some([16])
  {
    assert Shifted([0], 16) == [16];
    PlusTrees();
    LaunchedPlusTree(PlusSixteen, next, [0]);
  }
}

=== FILE: prototype.dfy ===
/** The daemon prototype: creation, launch, completion, stop and join.

    `Run` never changes its receiver: it launches a copy. The copy's `launched`
    flag is the single-flight guard: a copy whose flag is already set refuses
    to start. Channels missing on the copy, a join group and a cancellation
    scope are drawn from a counter of fresh handles.
 */
module Prototypes {
  import opened Types

  /** `NewDaemon`: only the function is set. */
  function NewDaemon<V>(fn: Body<V>): (p: Proto<V>)
    ensures p.fn == fn
    ensures p.inCh.None? && p.outCh.None? && p.errCh.None? && p.cancel.None? && p.wg.None?
    ensures !p.launched
  {
    Proto(fn, None, None, None, None, None, false)
  }

  /** `ActorFn.AsDaemon`: an unlaunched prototype running the actor's loop. */
  function AsDaemon<V>(a: Actor<V>): (d: Daemon<V>)
    ensures d.Prototype? && d.proto.fn == FromActor(a) && !d.proto.launched
    ensures d.proto.inCh.None? && d.proto.outCh.None? && d.proto.errCh.None?
  {
    Prototype(NewDaemon(FromActor(a)))
  }

  /** A handle kept if set, else the next fresh one. */
  function Fill(h: Option<Handle>, next: nat): (r: (Handle, nat))
    ensures h.Some? ==> r == (h.value, next)
    ensures h.None? ==> r == (next, next + 1)
  {
    if h.Some? then (h.value, next) else (next, next + 1)
  }

  /** A handle is kept when set, and is otherwise fresh: between two counter values. */
  ghost predicate KeptOrFresh(before: Option<Handle>, after: Option<Handle>, lo: nat, hi: nat)
  {
    if before.Some? then after == before else after.Some? && lo <= after.value < hi
  }

  /** The handles drawn in place of missing ones are pairwise distinct: each
      `make` is a new channel. */
  ghost predicate DrawnApart(before: seq<Option<Handle>>, after: seq<Option<Handle>>)
  {
    && |before| == |after|
    && forall i, j :: 0 <= i < j < |after| && before[i].None? && before[j].None? ==> after[i] != after[j]
  }

  datatype ProtoLaunch<!V> = ProtoLaunch(inst: Proto<V>, started: bool, err: Option<Error>, next: nat)

  /** `daemonPrototype.Run`: copy, fill the missing channels and join group, open a
      cancellation scope, then start the function unless the copy's flag was set. */
  function RunProto<V>(p: Proto<V>, next: nat): (r: ProtoLaunch<V>)
    ensures next <= r.next
    ensures r.inst.fn == p.fn
    ensures KeptOrFresh(p.inCh, r.inst.inCh, next, r.next)
    ensures KeptOrFresh(p.outCh, r.inst.outCh, next, r.next)
    ensures KeptOrFresh(p.errCh, r.inst.errCh, next, r.next)
    ensures KeptOrFresh(p.wg, r.inst.wg, next, r.next)
    ensures KeptOrFresh(None, r.inst.cancel, next, r.next)
    ensures DrawnApart([p.inCh, p.outCh, p.errCh, p.wg, None],
                       [r.inst.inCh, r.inst.outCh, r.inst.errCh, r.inst.wg, r.inst.cancel])
    ensures ProtoBelow(p, next) ==> ProtoBelow(r.inst, r.next)
    ensures r.inst.launched
    ensures r.started <==> !p.launched
    ensures r.err == if r.started then None else Some(DaemonAlreadyLaunched)
  {
    var (i, n1) := Fill(p.inCh, next);
    var (o, n2) := Fill(p.outCh, n1);
    var (e, n3) := Fill(p.errCh, n2);
    var (w, n4) := Fill(p.wg, n3);
    var copy := p.(inCh := Some(i), outCh := Some(o), errCh := Some(e), wg := Some(w), cancel := Some(n4));
    if p.launched then
      ProtoLaunch(copy, false, Some(DaemonAlreadyLaunched), n4 + 1)
    else
      ProtoLaunch(copy.(launched := true), true, None, n4 + 1)
  }

  datatype Finished<!V> = Finished(inst: Proto<V>, offered: Option<Error>)

  /** The launched function returns: the flag goes back to 0, and a non-nil
      error is offered once on the error channel unless cancellation wins. */
  function Finish<V>(p: Proto<V>, exit: Option<Error>, cancelled: bool): (f: Finished<V>)
    ensures !f.inst.launched
    ensures f.inst.(launched := p.launched) == p
    ensures f.offered.Some? <==> exit.Some? && !cancelled
    ensures f.offered.Some? ==> f.offered == exit
  {
    Finished(p.(launched := false), if cancelled then None else exit)
  }

  /** `IsLaunched` reports the flag that makes any Run of this copy refuse. */
  function IsLaunchedProto<V>(p: Proto<V>): (r: bool)
    ensures forall n: nat :: r <==> RunProto(p, n).err == Some(DaemonAlreadyLaunched)
  {
    p.launched
  }

  /** `daemonPrototype.Stop`: nothing unless launched; then cancel the scope once
      and forget it. The cancelled scope, if any, is reported. */
  function StopProto<V>(p: Proto<V>): (r: (Proto<V>, seq<Handle>))
    ensures !p.launched ==> r == (p, [])
    ensures r.0 == p || r.0 == p.(cancel := None)
    ensures p.launched && p.cancel.Some? ==> r.0 == p.(cancel := None)
    ensures p.cancel.None? ==> r.0 == p
    ensures r.1 == if p.launched && p.cancel.Some? then [p.cancel.value] else []
  {
    if !p.launched then (p, [])
    else if p.cancel.Some? then (p.(cancel := None), [p.cancel.value])
    else (p, [])
  }

  /** `daemonPrototype.Wait`: the join group waited on; none without one. */
  function WaitProto<V>(p: Proto<V>): (r: seq<Handle>)
    ensures |r| <= 1
    ensures r == [] <==> p.wg.None?
    ensures p.wg.Some? ==> r == [p.wg.value]
  {
    if p.wg.Some? then [p.wg.value] else []
  }

  /** Stopping twice is stopping once: the second Stop cancels nothing. */
  lemma StopProtoIdempotent<V>(p: Proto<V>)
    ensures StopProto(StopProto(p).0) == (StopProto(p).0, [])
  {
  }

  /** The launch flag as a single-flight state machine. A template runs any
      number of times, since Run leaves it untouched; the instance a successful
      Run returns refuses a second Run until its function has returned, and then
      runs again. */
  lemma SingleFlight<V>(p: Proto<V>, n: nat, m: nat, exit: Option<Error>, cancelled: bool)
    requires !p.launched
    ensures RunProto(p, n).started && RunProto(p, m).started
    ensures var inst := RunProto(p, n).inst;
      && IsLaunchedProto(inst)
      && !RunProto(inst, m).started
      && RunProto(inst, m).err == Some(DaemonAlreadyLaunched)
      && RunProto(inst, m).inst.launched
      && RunProto(Finish(inst, exit, cancelled).inst, m).started
  {
  }

  /** Stop before Finish cancels the scope Run opened, exactly once; Stop after
      Finish does nothing. */
  lemma StopAfterRun<V>(p: Proto<V>, n: nat, exit: Option<Error>, cancelled: bool)
    requires !p.launched
    ensures var inst := RunProto(p, n).inst;
      && StopProto(inst).1 == [inst.cancel.value]
      && StopProto(StopProto(inst).0).1 == []
      && StopProto(Finish(inst, exit, cancelled).inst).1 == []
  {
  }
}

=== FILE: types.dfy ===
/** Values, errors, actors and daemon descriptions shared by every other module.

    Channels, cancellation scopes and join groups are abstract handles; a Go
    `nil` handle is `None`. Daemons are immutable values: what the Go code does
    by mutating a freshly copied struct, the model does by returning a new value.
 */
module Types {

  datatype Option<+T> = None | Some(value: T)

  /** Identity of a channel, a cancellation scope or a join group. */
  type Handle = nat

  /** A message on a channel: Go's `interface{}`, which may be nil. */
  datatype Msg<+V> = Nil | Val(value: V)

  /** The errors the core produces, plus opaque errors of user code. */
  datatype Error =
    | Fault(text: string)             // returned by a user function
    | DaemonAlreadyLaunched           // a prototype's Run on a launched copy
    | AlreadyLaunched                 // a daemons connector whose two sides are launched
    | ToCallFailed(cause: Error)      // the daemon-to-actor bridge wraps its actor's error
    | FromCallFailed(cause: Error)    // the actor-to-daemon bridge wraps its actor's error

  /** What `errors.Unwrap` returns: the cause of a `%w` wrapper. */
  function Unwrap(e: Error): Option<Error>
  {
    match e
    case ToCallFailed(c) => Some(c)
    case FromCallFailed(c) => Some(c)
    case _ => None
  }

  /** The `(out, err)` pair an actor function returns. */
  datatype Answer<+V> = Answer(out: Msg<V>, err: Option<Error>)

  /** How the framework reads an Answer: the error first, then a nil output. */
  datatype Reply<+V> = Failed(error: Error) | NoOutput | Output(value: V)

  function Classify<V>(a: Answer<V>): (r: Reply<V>)
    ensures r.Failed? <==> a.err.Some?
    ensures r.Failed? ==> r.error == a.err.value
    ensures r.NoOutput? <==> a.err.None? && a.out.Nil?
    ensures r.Output? ==> a.out == Val(r.value)
  {
    if a.err.Some? then Failed(a.err.value)
    else if a.out.Nil? then NoOutput
    else Output(a.out.value)
  }

  /** An Actor: a plain function, or the sequential composition of two actors. */
  datatype Actor<!V> =
    | Fn(fn: Msg<V> -> Answer<V>)
    | Composed(from: Actor<V>, to: Actor<V>)

  /** The function a prototype runs once launched. */
  datatype Body<!V> =
    | FromActor(actor: Actor<V>)                 // the per-message loop of an actor
    | Custom(id: nat)                            // any other daemon function, left opaque
    | ClusterOf(size: nat, template: Daemon<V>)  // the worker-pool body
    | Bridge                                     // the own loop of a struct connector

  /** The fields of a daemon prototype; `cancel` is set by Run, `launched` is the atomic flag. */
  datatype Proto<!V> = Proto(
    fn: Body<V>,
    inCh: Option<Handle>,
    outCh: Option<Handle>,
    errCh: Option<Handle>,
    cancel: Option<Handle>,
    wg: Option<Handle>,
    launched: bool)

  /** A daemon: a prototype, or a daemons connector with its shared error channel. */
  datatype Daemon<!V> =
    | Prototype(proto: Proto<V>)
    | Connected(errChan: Option<Handle>, from: Daemon<V>, to: Daemon<V>)

  /** The wiring of a daemon with its channels and flags erased. */
  datatype Skeleton<!V> = Node(body: Body<V>) | Join(left: Skeleton<V>, right: Skeleton<V>)

  function Shape<V>(d: Daemon<V>): Skeleton<V>
  {
    match d
    case Prototype(p) => Node(p.fn)
    case Connected(_, f, t) => Join(Shape(f), Shape(t))
  }

  /** The prototypes of a daemon in launch order: `from` before `to`. */
  function Frontier<V>(d: Daemon<V>): (r: seq<Proto<V>>)
    ensures |r| >= 1
  {
    match d
    case Prototype(p) => [p]
    case Connected(_, f, t) => Frontier(f) + Frontier(t)
  }

  /** The shared error channels of a daemon's connectors, left to right. */
  function Links<V>(d: Daemon<V>): seq<Option<Handle>>
  {
    match d
    case Prototype(_) => []
    case Connected(e, f, t) => Links(f) + [e] + Links(t)
  }

  /** A daemon is determined by its shape, its prototypes and its connectors'
      error channels: two daemons that agree on all three are equal. */
  lemma {:induction false} ViewsDetermine<V>(a: Daemon<V>, b: Daemon<V>)
    requires Shape(a) == Shape(b) && Frontier(a) == Frontier(b) && Links(a) == Links(b)
    ensures a == b
  {
    match a
    case Prototype(p) =>
      assert Frontier(a)[0] == p && Frontier(b)[0] == b.proto;
    case Connected(e, f, t) =>
      var Connected(e', f', t') := b;
      SizesFollowShape(f, f');
      assert Frontier(f) == Frontier(a)[..|Frontier(f)|] == Frontier(f');
      assert Frontier(t) == Frontier(a)[|Frontier(f)|..] == Frontier(t');
      assert Links(a)[|Links(f)|] == e && Links(b)[|Links(f')|] == e';
      assert Links(f) == Links(a)[..|Links(f)|] == Links(f');
      assert Links(t) == Links(a)[|Links(f)| + 1..] == Links(t');
      ViewsDetermine(f, f');
      ViewsDetermine(t, t');
  }

  /** Daemons of one shape have as many prototypes and as many connectors. */
  lemma {:induction false} SizesFollowShape<V>(a: Daemon<V>, b: Daemon<V>)
    requires Shape(a) == Shape(b)
    ensures |Frontier(a)| == |Frontier(b)| && |Links(a)| == |Links(b)|
  {
    match a
    case Prototype(_) =>
    case Connected(_, f, t) =>
      SizesFollowShape(f, b.from);
      SizesFollowShape(t, b.to);
  }

  /** A handle, if any, drawn before the counter reached `n`. */
  predicate Below(h: Option<Handle>, n: nat)
  {
    h.None? || h.value < n
  }

  predicate ProtoBelow<V>(p: Proto<V>, n: nat)
  {
    Below(p.inCh, n) && Below(p.outCh, n) && Below(p.errCh, n) && Below(p.cancel, n) && Below(p.wg, n)
  }

  /** Every handle the daemon holds was drawn before the counter reached `n`
      (not those inside a cluster's template), so any handle drawn from `n` on
      is one the daemon does not hold. */
  predicate HeldBelow<V>(d: Daemon<V>, n: nat)
  {
    match d
    case Prototype(p) => ProtoBelow(p, n)
    case Connected(e, f, t) => Below(e, n) && HeldBelow(f, n) && HeldBelow(t, n)
  }
}
